=== FILE: README.md ===
# PingChrong in Dafny

A model of the game logic of PingChrong, a Pebble watchface that shows the
time as a game of Pong. Two AI paddles rally a ball. When the minute changes,
the left paddle sets out to miss. When the hour changes, the right paddle
sets out to miss. The right paddle can still graze the ball when it goes
below it, and the left paddle can graze it either way (see "Findings").
After each goal the score line is reprinted with the current time.

The model covers the integer and bit-level core of `src/pingchrong.c`.

- **`Xtea`** (`xtea.dfy`): the 32-round XTEA encipherment (`encipher`) that drives the
  random generator. It has two definitions: a round-by-round function, and a
  counted loop shaped like the C routine. They are proved equal.
- **`Prng`** (`prng.dfy`): the generator state, `crand` and its three kinds of draw,
  the AI's coin, and `init_crand`. `init_crand` is modelled as a pure function
  of the clock reading: hour, minute and second, and the two millisecond
  readings it takes, one for each seed word.
- **`Geometry`** (`geometry.dfy`): `intersectrect`, the closed-rectangle overlap test.
  It is proved equivalent to "the rectangles share a point".
- **`Score`** (`score.dfy`): `set_score`, which maps the hour for 12-hour mode and
  prints `"%02d  %02d"` into the 8-byte score buffer. A reader for that format
  gives the round trip.
- **`PaddleAi`** (`paddle.dfy`):
  - the keepout band (the y range the ball is expected to sweep at the
    paddle);
  - the win or lose destination;
  - the just-in-time paddle step, capped at `MAX_PADDLE_SPEED`;
  - the clamp that keeps a paddle between the bars.
- **`BallStep`** (`ball.dfy`): the ball's travel, the reflection off the bars, the goal
  test and the serve from the centre.
- **`LookAhead`** (`lookahead.dfy`): `calculate_keepout`, the AI's simulation of the
  ball up to the paddle's column. It is written both as a recursive function
  and as the C-shaped loop, and they are proved equal. Closed forms give the
  number of frames the look-ahead counts.
- **`Frame`** (`frame.dfy`): one call of `anim_layer_update_callback` over the whole
  integer state, composed from the parts above.
- **`Config`** (`config.dfy`): the constants of `src/pingchrong.h`, the `uint8_t`
  conversion, and the table geometry.

Widths are modelled as follows:
- Arithmetic on `uint32_t` uses `bv32`.
- Each `uint8_t` store (keepout band, look-ahead count, frames left) is reduced
  modulo 256.
- `crand`'s `uint16_t` result keeps only the low 16 bits.

Ball positions and velocities are whole numbers. `safe_cos` and `safe_sin`
return `int`, and `MAX_BALL_SPEED` is 1. So the only non-integer values in
a frame are the interpolated contact and crossing positions, and the frame
takes those as inputs (`Frame.Outside`).

The code has several asymmetries, and the model keeps each of them:

- The live frame lets the ball's centre reach y = 5 (`BALL_RADIUS - 1` below
  the bar, src/pingchrong.c:349-351). The look-ahead stops it at y = 6
  (src/pingchrong.c:130-131). `BallStep.LiveAndLookAheadDiffer` states
  exactly when the two disagree.
- A goal clears only the two keepout bands, not the rest of the AI memory.
  The estimates and the destinations survive.
- A hit on the right paddle drops both paddles' plans. A hit on the left
  paddle drops only the left one's.
- The right band ends `BALL_RADIUS - 1` below the larger estimate. The left
  band ends `BALL_RADIUS` below it.
- On the right, the look-ahead (src/pingchrong.c:135-139) and the live
  contact test (src/pingchrong.c:407-411) interpolate the ball's y at the
  same column, where the ball's right edge meets the paddle. On the left,
  the look-ahead interpolates where the ball's centre meets the paddle's
  right edge, `left_paddle_x + PADDLE_W` (src/pingchrong.c:149-155). The
  live test interpolates two pixels earlier, at the face
  `left_paddle_x + PADDLE_W + BALL_RADIUS` (src/pingchrong.c:532-540).
  `Frame.RightBoxAtBounce` and `Frame.LeftBoxOffBounce` state the
  consequence for the ball's box.
- The look-ahead's loop never ends for a ball with no horizontal velocity
  between the columns. The model requires a non-zero horizontal velocity
  there. The frame calls it only with `dx > 0` or `dx < 0`.

## Model

| member | source | states |
|---|---|---|
| `Xtea.Encipher` | src/pingchrong.c:181-190 | The 32-iteration loop, whose running sum starts at 0 and grows by 0x9E3779B9 after every round, computes exactly the 32-round XTEA encipherment defined round by round (`EncipherBlock`). |
| `Prng.DrawWord` | src/pingchrong.c:249-251 | A kind-0 draw performs exactly one encipherment and keeps the key. Its value fits 16 bits, sets no bit outside `RAND_MAX`, and keeps exactly the bits `RAND_MAX` selects from the XOR of the NEW state words. |
| `Prng.MaskedValue` | src/pingchrong.c:251 | The returned value sets no bit outside `RAND_MAX` and agrees with the mixed word on every bit it keeps. |
| `Prng.DrawQuadrant` | src/pingchrong.c:252-253 | A kind-1 draw leaves the state unchanged and returns bits 15-16 of the mixed word, a value in [0, 3]. |
| `Prng.DrawBit` | src/pingchrong.c:254-255 | A kind-2 draw leaves the state unchanged and returns bit 17 of the mixed word, a value in {0, 1}. |
| `Prng.Crand` | src/pingchrong.c:248-258 | Kinds 0 and above 2 are the advancing draw, and kinds 1 and 2 are the two non-advancing ones. Every draw leaves the state either as it was or advanced by exactly one encipherment. |
| `Prng.NonAdvancingDrawsRepeat` | src/pingchrong.c:252-255 | Repeating a kind-1 or kind-2 draw gives the same value and the same state again. |
| `Prng.Coin` | src/pingchrong.c:479-482 | The AI's coin `(uint8_t)crand(2) & 1` comes up heads exactly when bit 17 of the mixed word is set. |
| `Prng.SeedKey` | src/pingchrong.c:201-236 | Key seeding XORs k0 and k1 only with words shifted left and k2 and k3 only with words shifted right. So bit 0 of k0 and k1 and bit 31 of k2 and k3 always keep their initial values. |
| `Prng.InitCrand` | src/pingchrong.c:196-240 | The seeded key keeps bit 0 of k0 and k1 and bit 31 of k2 and k3 from the initial key, whatever the clock reads. |
| `Prng.SeedDependsOnlyOnWords` | src/pingchrong.c:207-239 | Two clock readings that pack to the same two seed words seed the same generator state. |
| `Prng.SecondMillisLowByteOnly` | src/pingchrong.c:223-236 | Only the low byte of the second millisecond reading reaches the seed. Readings that agree there seed the same state. |
| `Prng.FirstMillisMeetHour` | src/pingchrong.c:207-214 | Bit 8 of the first millisecond reading lands on the hour's bit 0. At an odd hour, readings that differ only in that bit seed the same state. |
| `Prng.SeedWordOverlaps` | src/pingchrong.c:207-214 | An instance of the overlap `FirstMillisMeetHour` states in general: the milliseconds are ORed in one byte above the minute and overlap the hour's bits, so hour 1 and 256 ms pack to the same seed word. |
| `Geometry.IntersectsIffShareAPoint` | src/pingchrong.c:84-99 | The four "lies strictly beyond" rejections accept exactly the pairs of closed rectangles that have a point in common, in both directions. |
| `Geometry.IntersectsSymmetric` | src/pingchrong.c:84-99 | The overlap test does not depend on the order of the rectangles. |
| `Geometry.TouchingEdgesIntersect` | src/pingchrong.c:87-88 | Rectangles whose edges only touch (`x1 + w1 == x2`) count as overlapping. |
| `Geometry.GapSeparates` | src/pingchrong.c:87-95 | A gap of one pixel on either axis makes the test fail. |
| `Score.DisplayHour` | src/pingchrong.c:296-299 | In 24-hour mode the hour is unchanged. In 12-hour mode, hours 1-12 are unchanged, and every hour 0-23 is shown as a value in [1, 12] congruent to it modulo 12. |
| `Score.Decimal` | src/pingchrong.c:301 | The `%d` spelling is all digits and reads back as the number. It has one character below 10 and two from 10 to 99. |
| `Score.PadTwo` | src/pingchrong.c:301 | The `%02d` spelling reads back as the number, is at least two characters long, and is exactly two characters below 100. |
| `Score.FormatScore` | src/pingchrong.c:290-304 | The score never exceeds the 7 characters the 8-byte buffer holds. For a real clock reading it is 6 characters with two spaces in the middle. |
| `Score.ScoreRoundTrip` | src/pingchrong.c:290-304 | For hour ≤ 23 and minute ≤ 59, reading the score line back gives the displayed hour and the minute. |
| `Score.ScoreExamples` | src/pingchrong.c:296-301 | 13:00 in 12-hour mode shows `01  00`. 00:05 shows `12  05`. 13:00 in 24-hour mode shows `13  00`. |
| `PaddleAi.Keepout` | src/pingchrong.c:451-457 | The band's top is the smaller estimate. Unless the `uint8_t` store wraps, the band reaches the side's margin below both estimates, so top ≤ bottom. |
| `PaddleAi.Destination` | src/pingchrong.c:463-485 | A winning paddle centres on the expected bounce. A losing one goes just below or just above the band. Near the top it goes below. Near the bottom it goes above. In the middle it goes above exactly on heads. |
| `PaddleAi.LosingPaddleClearsBand` | src/pingchrong.c:467-485 | A losing paddle's rectangle fails the collision test against the band's rectangle in every case. The band is not the ball's box at contact, so this does not by itself make the paddle miss (see `Frame.RightMissAsWritten` and `Frame.LeftMissAsWritten`). |
| `PaddleAi.ClearDestination` | src/pingchrong.c:467-485 | The corrected losing destination picks the same side as the code's, one pixel further from the band. A winning destination is the code's. |
| `PaddleAi.WinningPaddleCoversBall` | src/pingchrong.c:463-466 | A winning paddle's span covers the ball's whole box at the expected bounce. |
| `PaddleAi.PaddleStep` | src/pingchrong.c:495-528 | The step moves only when the distance exceeds what the remaining frames can cover. It then moves toward the destination by min(distance, 10). It never passes the destination, never moves more than 10, and stays put on the destination. |
| `PaddleAi.GlideArrives` | src/pingchrong.c:486-528 | A paddle within reach (distance ≤ 10 × frames left) is on its destination by the time the count of frames left runs out. |
| `PaddleAi.GlideNotEarly` | src/pingchrong.c:486-528 | A paddle within reach that starts off its destination is still off it after every frame but the last. With `GlideArrives`, it arrives exactly on the last frame. |
| `PaddleAi.Clamp` | src/pingchrong.c:662-670 | After the clamp, a paddle lies between the bars on any table tall enough for a paddle. A paddle already in range is unchanged. |
| `PaddleAi.ClampIdempotent` | src/pingchrong.c:662-670 | Clamping twice is the same as clamping once. |
| `PaddleAi.ClampNearest` | src/pingchrong.c:662-670 | A paddle out of range is put on the nearer limit. |
| `BallStep.Reflect` | src/pingchrong.c:343-353 | The vertical speed is kept and the ball ends at or below the top bound. On a tall enough table it ends between the bounds. A ball between the bounds is untouched. A ball past either bound is put on that bound and turned round. |
| `BallStep.WallStep` | src/pingchrong.c:339-353 | A frame moves x by dx and keeps dx and the size of dy. It leaves the ball between the bars. |
| `BallStep.LiveAndLookAheadDiffer` | src/pingchrong.c:129-133 | The live frame and the look-ahead agree on a ball that travels no higher than y = 6 and disagree on one that travels higher. A ball landing on y = 5 keeps its velocity live but is turned round in the look-ahead. |
| `BallStep.Serve` | src/pingchrong.c:385-388 | The serve puts the ball at the table's centre, rounded down, with the drawn velocity. On a table at least 6 wide the serve is not itself a goal. |
| `LookAhead.CrossingOf` | src/pingchrong.c:135-160 | A step records a crossing exactly when it crosses the right column or the left face. The right test is taken first. The record holds the pre-step position and the post-reflection dy. |
| `LookAhead.Simulate` | src/pingchrong.c:117-172 | Once a crossing is seen, the count stops changing. The final y is the start y if no step is taken. Otherwise it lies between the look-ahead's bounds. |
| `LookAhead.RightwardCount` | src/pingchrong.c:117-164 | Heading right from short of the right column, the look-ahead crosses on the right after (rpx − x − 4) / dx counted frames, modulo 256. |
| `LookAhead.LeftwardCount` | src/pingchrong.c:117-164 | Heading left from beyond the left face, it crosses on the left after (x − lpx − 4) / −dx counted frames, modulo 256. |
| `LookAhead.LeftwardFromFace` | src/pingchrong.c:149-164 | Heading left from on or inside the left face, it never records a crossing and counts every step, (x + 1 − lpx) / −dx + 1 of them. |
| `LookAhead.RightwardSettled` | src/pingchrong.c:161-164 | After a rightward crossing, later steps change neither the record nor the count. |
| `LookAhead.LeftwardSettled` | src/pingchrong.c:161-164 | After a leftward crossing, later steps change neither the record nor the count. |
| `LookAhead.CrossingYEnds` | src/pingchrong.c:139-155 | The interpolation of a step's y at a column gives the step's start y at its start column and its end y at its end column. |
| `LookAhead.CrossingYShift` | src/pingchrong.c:139-155 | Starting a step k pixels lower moves the interpolated y k pixels lower, even after the cut to a whole pixel. |
| `LookAhead.CrossingYMonotone` | src/pingchrong.c:149-155 | For a ball moving left, the interpolated y at a column further left is at least as low when the ball moves down and at least as high when it moves up. |
| `LookAhead.CalculateKeepout` | src/pingchrong.c:105-175 | The C-shaped loop, with its sticky `collided` flag and `uint8_t` counter, computes the recursive look-ahead. |
| `Frame.Plan` | src/pingchrong.c:446-488 | With a band planned, the memory is kept and one frame is counted down modulo 256. Otherwise the frames left are the look-ahead's count, and the estimate is the interpolated crossing or the old one. The band starts at the smaller estimate, at or above both. A losing destination lies wholly above or below the band. A winning one spans the ball at the expected bounce. |
| `Frame.ResetMemoryReplans` | src/pingchrong.c:436-447 | After a hit or a goal, the next approaching frame runs the look-ahead again. With no crossing seen, a hit leaves the estimate at zero and a goal keeps the old one. |
| `Frame.WallPhase` | src/pingchrong.c:339-399 | A goal re-serves the ball, spends exactly one encipherment, clears both bands and both flags, and reprints the score. Without a goal only the ball changes. |
| `Frame.RightPhase` | src/pingchrong.c:406-529 | The rightward part of a frame never moves the left paddle, the generator, the flags or the score. It moves the right paddle at most 10, at most turns dx round, and keeps dy. |
| `Frame.LeftPhase` | src/pingchrong.c:530-658 | The leftward part never touches the right paddle or its memory, the generator, the flags or the score. It moves the left paddle at most 10, at most turns dx round, and keeps dy. |
| `Frame.Step` | src/pingchrong.c:322-670 | After any frame, on a table tall enough for a paddle, both paddles lie between the bars. |
| `Frame.GoalResets` | src/pingchrong.c:361-399 | Over a whole frame, a goal clears both flags, advances the generator once and reprints the score. A frame without a goal changes none of these. |
| `Frame.VelocityTurnsAtMost` | src/pingchrong.c:339-560 | Between goals, a frame at most turns each velocity component round. |
| `Frame.SpeedKept` | src/pingchrong.c:339-560 | Between goals, a frame keeps the size of each velocity component. |
| `Frame.RightBoxAtBounce` | src/pingchrong.c:135-147 | Taken from the same crossing step, the right contact box (src/pingchrong.c:407-415) starts exactly one pixel above the look-ahead's estimate, because both interpolate at the same column. |
| `Frame.LeftBoxAtFace` | src/pingchrong.c:530-540 | The left contact box starts exactly `BALL_RADIUS` above the ball's interpolated y at the face. |
| `Frame.LeftBoxOffBounce` | src/pingchrong.c:149-157 | Taken from the same crossing step, the left contact box (src/pingchrong.c:532-540) starts at or above the look-ahead's estimate less 2 when the ball moves down, and at or below it when the ball moves up. The two differ because they interpolate two columns apart. |
| `Frame.RightMissAsWritten` | src/pingchrong.c:406-482 | From the crossing step, when the expected bounce is the lower estimate, a right paddle sent below the band (`keepout_bot + 2`) touches the box the contact test builds. A right paddle sent above clears it. |
| `Frame.LeftMissAsWritten` | src/pingchrong.c:530-606 | From the crossing step, a left paddle sent above the band (`keepout_top - PADDLE_H - 2`) when the bounce is the upper estimate touches the box of a ball moving down, if the box is not far above. A left paddle sent below (`keepout_bot + 2`) when the bounce is the lower estimate touches a box starting at or below the estimate. |
| `Frame.RightMissTouchExample` | src/pingchrong.c:406-475 | On a 144-wide table, a losing right paddle with bounce 30 and end 20 heads for y = 33, and the ball's box at y = 29 touches it there. |
| `Frame.LeftExamplePredictions` | src/pingchrong.c:105-175 | The look-ahead from (20, 112) moving (−4, −4) counts 3 frames, crosses on the step from (8, 100), and ends at y = 92. From (20, 30) moving (−4, 4) it counts 3, crosses from (8, 42), and ends at y = 50. |
| `Frame.LeftBelowTouchExample` | src/pingchrong.c:530-610 | From the step at (8, 100) moving (−4, −4), the estimate is 97 and the contact box starts at 97. On tails the losing left paddle heads for 101, and the box touches it there. |
| `Frame.LeftAboveTouchExample` | src/pingchrong.c:530-610 | From the step at (8, 42) moving (−4, 4), the estimate is 45 and the contact box starts at 41. On heads the losing left paddle heads for 23 and touches the box. With the estimate taken at the face (43) and a clear pixel, it heads for 20 and misses. |
| `Frame.ClearRightMissAvoidsBall` | src/pingchrong.c:406-482 | With a clear pixel of room (`ClearDestination`), a losing right paddle at its destination misses the box the contact test builds from the crossing step. |
| `Frame.ClearLeftMissAvoidsBall` | src/pingchrong.c:530-610 | With the estimate taken at the face and a clear pixel of room, a losing left paddle at its destination misses the box the contact test builds from the crossing step. |
| `Frame.PaddleTravel` | src/pingchrong.c:495-670 | From between the bars, each paddle moves at most 10 in a frame. The paddle the ball is moving away from does not move. |

## Left out

- Drawing and lifecycle are not modelled: the `graphics_*` calls,
  `table_layer_update_callback`, window load and unload, `init`/`deinit`,
  `main` and the animation timer. They only render or schedule frames.
- Settings sync (the AppSync callbacks) and `src/js/pebble-js-app.js` are not
  modelled. They are I/O plumbing. The 12-hour setting reaches the model as a
  boolean.
- `handle_minute_tick`, which sets the two "changed" flags, is not modelled.
  The flags are part of `Frame.Game`, and who sets them is outside the frame.
- `safe_cos`, `safe_sin` and `random_angle_rads` are not modelled. They use the
  SDK's lookup tables and floating point. The serve's velocity is an input.
  The two draws the serve makes are modelled for their effect on the
  generator: one encipherment.
- The floating-point interpolations are inputs (`Frame.Outside`): the y at a
  look-ahead crossing, the contact y at a paddle hit, and the y of the ball's
  box handed to the collision test. The integer parts of those computations,
  the contact x and the box x, are modelled.
- The interpolated y of a crossing (`LookAhead.CrossingY`) is the exact
  quotient cut to a whole pixel. Float rounding is not modelled. The frame
  still takes the interpolated values as inputs. `CrossingY` is used only
  by the lemmas that compare the look-ahead's estimate with the contact box.
- Clock reads (`time`, `localtime`, `time_ms`) are parameters: the
  `Prng.Clock` record for `init_crand` (with both `time_ms` readings) and
  fields of `Frame.Outside`.
- The `DEBUGGING`-gated logging and the `failed` flag are not modelled. They
  are compiled out.
- `RAND_MAX` comes from the C library and is a parameter (`randMax`).
- Wrap-around of `int16_t` paddle positions, destinations and ball
  coordinates is not modelled. On a watch-sized table these stay far from
  the limits. Every `uint8_t` store is modelled with its wrap.
- XTEA decipherment is not modelled, because the watchface never deciphers.
  `Encipher` is paired with the round-by-round definition instead.
- Prng.SeedKey: states only the key bits the seeding cannot change, not the
  whole key as a closed form. The key is the body's seven
  encipher-and-XOR steps.
- Frame.Step: its own contract states only the paddle range after the
  clamp. The other whole-frame properties are the `Frame` lemmas.
- A zero horizontal velocity is excluded from the look-ahead
  (`LookAhead.Simulate` requires `dx != 0`). The C loop would not end for
  such a ball while it is between the columns.

## Findings

The live contact test builds the ball's box around the y where the step
that reaches the paddle crosses the contact column. The box starts at
y − 1 on the right (src/pingchrong.c:415) and at y − 2 on the left
(src/pingchrong.c:540), is 4 pixels high, and touching edges count as a
hit. The losing destinations leave a one-pixel gap to the keepout band.
The rows take the live ball to follow the look-ahead's path, so that both
see the same crossing step.

| source | as written | input that shows it | evidently intended | confidence | as-written member | corrected member |
|---|---|---|---|---|---|---|
| src/pingchrong.c:451-475 | A losing right paddle sent below the band goes to `keepout_bot + 2`. When the bounce is the lower estimate, that is the bottom edge of the ball's box. | Table 144 wide, bounce 30, end 20, ball x 136 → 137: destination 33, box `Rect(136, 29, 4, 4)`, paddle `Rect(139, 33, 3, 20)`; they touch. | The paddle stops a clear pixel below the box (`keepout_bot + 3`), so the comment's "make sure we -dont- hit the ball" holds. | medium, not executed | `Frame.RightMissAsWritten` | `Frame.ClearRightMissAvoidsBall` |
| src/pingchrong.c:149-157 | The left estimate is taken at the paddle's edge, two pixels past the face where the contact test looks. A losing left paddle then sent to `keepout_top - PADDLE_H - 2` or `keepout_bot + 2` can touch the box. | Table 144 by 168. From (20, 112) moving (−4, −4): estimate 97, end 92, tails: destination 101, box `Rect(5, 97, 4, 4)`; they touch. From (20, 30) moving (−4, 4): estimate 45, end 50, heads: destination 23, box `Rect(5, 41, 4, 4)`; they touch. | The look-ahead takes the left estimate at the face, as the contact test does, and the paddle stops a clear pixel from the band (`keepout_top - PADDLE_H - 3`, `keepout_bot + 3`). | medium, not executed | `Frame.LeftMissAsWritten` | `Frame.ClearLeftMissAvoidsBall` |

`PaddleAi.ClearDestination` is the corrected destination and
`LookAhead.FaceBounceY` the corrected left estimate. `Frame.ClearRightMissAvoidsBall`
and `Frame.ClearLeftMissAvoidsBall` prove that with them a losing paddle
misses. The frame itself (`Frame.Plan`) keeps the code's offsets and
columns, so the whole-frame lemmas describe the watchface as it ships.

=== FILE: ball.dfy ===
/**
  The ball's integer motion: one frame of travel by its velocity, the
  reflection off the top and bottom bars, the goal test at the side walls
  and the serve from the centre after a goal.  The velocity components are
  the whole numbers the trigonometry wrappers return.
 */
module BallStep {
  import opened Config

  /** The ball's centre and its velocity in pixels per frame. */
  datatype Ball = Ball(x: int, y: int, dx: int, dy: int)

  /** The vertical half of the ball's state. */
  datatype Vertical = Vertical(y: int, dy: int)

  /** Highest y the live frame allows the ball's centre (one pixel nearer the bar than the look-ahead). */
  const LiveBallTop: int := BarMargin + BarHeight + BallRadius - 1

  /** Highest y the look-ahead allows the ball's centre. */
  const LookAheadBallTop: int := BarMargin + BarHeight + BallRadius

  /** Lowest y the ball's centre may take, in the live frame and the look-ahead alike. */
  function BallBottom(t: Table): int {
    t.h - BarMargin - BarHeight - BallRadius - 1
  }

  /**
    The reflection off the bars: a ball below `bottom` is put on it with its
    vertical velocity reversed, then one above `top` is put on that with
    its velocity reversed.  Speed is kept, and a ball between the bounds is
    left alone.
   */
  function Reflect(y: int, dy: int, top: int, bottom: int): (v: Vertical)
    ensures v.dy == dy || v.dy == -dy
    ensures v.y >= top
    ensures top <= bottom ==> v.y <= bottom
    ensures top <= y <= bottom ==> v == Vertical(y, dy)
    ensures top <= bottom && y > bottom ==> v.y == bottom && v.dy == -dy
    ensures y < top && y <= bottom ==> v.y == top && v.dy == -dy
  {
    var floor := if y > bottom then Vertical(bottom, -dy) else Vertical(y, dy);
    if floor.y < top then Vertical(top, -floor.dy) else floor
  }

  /** One frame of travel: the position moves by the velocity. */
  function Move(b: Ball): (m: Ball)
    ensures m.x - b.x == b.dx && m.y - b.y == b.dy
    ensures m.dx == b.dx && m.dy == b.dy
  {
    b.(x := b.x + b.dx, y := b.y + b.dy)
  }

  /** One frame of travel followed by the reflection off the bars, with `top` as the upper bound. */
  function WallStep(b: Ball, t: Table, top: int): (r: Ball)
    ensures r.x == b.x + b.dx && r.dx == b.dx
    ensures r.dy == b.dy || r.dy == -b.dy
    ensures top <= BallBottom(t) ==> top <= r.y <= BallBottom(t)
  {
    var m := Move(b);
    var v := Reflect(m.y, m.dy, top, BallBottom(t));
    m.(y := v.y, dy := v.dy)
  }

  /** The live frame's travel and reflection. */
  function LiveStep(b: Ball, t: Table): Ball {
    WallStep(b, t, LiveBallTop)
  }

  /** The look-ahead's travel and reflection. */
  function LookAheadStep(b: Ball, t: Table): Ball {
    WallStep(b, t, LookAheadBallTop)
  }

  /**
    The live frame and the look-ahead agree on a ball that travels no
    higher than the look-ahead's bound.  A ball that travels higher ends on
    a different row in each: the live bound in the live frame, the
    look-ahead's bound in the look-ahead.  One that lands exactly on the
    live bound keeps its velocity in the live frame but is turned round in
    the look-ahead.
   */
  lemma LiveAndLookAheadDiffer(b: Ball, t: Table)
    requires LookAheadBallTop <= BallBottom(t)
    ensures b.y + b.dy >= LookAheadBallTop ==> LiveStep(b, t) == LookAheadStep(b, t)
    ensures b.y + b.dy < LookAheadBallTop ==>
              LiveStep(b, t).y == LiveBallTop && LookAheadStep(b, t).y == LookAheadBallTop
    ensures b.y + b.dy == LiveBallTop ==>
              LiveStep(b, t).dy == b.dy && LookAheadStep(b, t).dy == -b.dy
  {
  }

  /** Whether the ball has reached a side wall: a goal for the paddle on the other side. */
  predicate IsGoal(x: int, t: Table) {
    x > t.w - BallRadius - 1 || x <= BallRadius
  }

  /**
    The serve after a goal: the ball at the centre of the table with the
    freshly drawn velocity (the trigonometry's whole-number result, scaled
    by `MAX_BALL_SPEED`, which is 1).
   */
  function Serve(t: Table, dx: int, dy: int): (b: Ball)
    ensures b.dx == dx && b.dy == dy
    ensures 2 * b.x <= t.w < 2 * b.x + 2 && 2 * b.y <= t.h < 2 * b.y + 2
    ensures t.w >= 6 ==> !IsGoal(b.x, t)
    ensures t.h >= 13 ==> LiveBallTop <= b.y <= BallBottom(t)
  {
    Ball(t.w / 2, t.h / 2, dx, dy)
  }
}

=== FILE: config.dfy ===
/**
  Game constants and the table geometry shared by every part of the model.
  The values are the ones the watchface is built with (src/pingchrong.h).
 */
module Config {

  /** Ball radius in pixels. */
  const BallRadius: int := 2
  /** Paddle height and width in pixels. */
  const PaddleH: int := 20
  const PaddleW: int := 3
  /** Horizontal gap between each paddle and the screen edge. */
  const PaddleMargin: int := 2
  /** Largest distance an AI paddle travels in one frame. */
  const MaxPaddleSpeed: int := 10
  /** Thickness of the top and bottom bars, and their distance from the screen edge. */
  const BarHeight: int := 2
  const BarMargin: int := 2

  /** An optional value. */
  datatype Option<T> = None | Some(value: T)

  /** The values of a C `uint8_t`. */
  type Byte = x: int | 0 <= x < 256

  /** Conversion of an integer to `uint8_t`: reduction modulo 256. */
  function Wrap8(x: int): (r: Byte)
    ensures 0 <= x < 256 ==> r == x
    ensures (x - r) % 256 == 0
  {
    x % 256
  }

  /** The playing area, sized from the display bounds. */
  datatype Table = Table(w: nat, h: nat) {

    /** x of the left paddle (`PADDLE_MARGIN`). */
    function LeftPaddleX(): Byte {
      PaddleMargin
    }

    /** x of the right paddle, stored in a `uint8_t`. */
    function RightPaddleX(): Byte {
      Wrap8(w - PaddleW - PaddleMargin)
    }

    /** Smallest y a paddle may take. */
    function PaddleTop(): int {
      BarMargin + BarHeight - 1
    }

    /** Largest y a paddle may take. */
    function PaddleBottom(): int {
      h - PaddleH - BarMargin - BarHeight - 1
    }
  }
}

=== FILE: frame.dfy ===
/**
  One animation frame (`anim_layer_update_callback`) over the integer
  state: the ball travels and reflects, a goal re-serves it, the paddle the
  ball is heading for tests the collision and plans and takes its step,
  and both paddles are clamped between the bars.  Drawing is not part of
  the model; the floating-point interpolations and the trigonometry are
  values the frame receives.
 */
module Frame {
  import opened Config
  import opened Geometry
  import opened Prng
  import opened Score
  import opened PaddleAi
  import opened BallStep
  import opened LookAhead

  /**
    One paddle's AI memory: the two estimates of the ball's y, the keepout
    band (a zero top means "nothing planned"), and the destination.
   */
  datatype Memory = Memory(bouncepos: Byte, endpos: Byte, keepoutTop: Byte, keepoutBot: Byte, dest: int)

  /** The whole state the frame reads and writes. */
  datatype Game = Game(
    ball: Ball,
    leftY: int,
    rightY: int,
    left: Memory,
    right: Memory,
    ticks: Byte,
    minuteChanged: bool,
    hourChanged: bool,
    prng: State,
    score: string)

  /**
    What the frame receives from outside the integer model: the velocity
    the trigonometry gives the serve after a goal; the clock reading and
    the 12-hour setting the score is printed from; the C library's
    `RAND_MAX`, which masks the serve's draw; at a paddle contact, the
    y of the ball's box handed to the collision test and the ball's y once
    put against the paddle; and the y the look-ahead interpolates at a
    crossing.
   */
  datatype Outside = Outside(
    serveDx: int,
    serveDy: int,
    hour: Byte,
    minute: Byte,
    twelveHour: bool,
    randMax: bv32,
    boxY: Byte,
    contactY: int,
    intercept: Byte)

  /** The memory after the paddle's hit: the plan is dropped (the end estimate is kept). */
  function Forget(m: Memory): Memory {
    m.(bouncepos := 0, dest := 0, keepoutTop := 0, keepoutBot := 0)
  }

  /** The memory after a goal: only the keepout band is cleared. */
  function ClearBand(m: Memory): Memory {
    m.(keepoutTop := 0, keepoutBot := 0)
  }

  /**
    After a hit or a goal the next approaching frame plans afresh: the
    frames left are the look-ahead's count again.  When the look-ahead sees
    no crossing, a hit leaves the estimate at zero while a goal keeps the
    old one.
   */
  lemma ResetMemoryReplans(side: Side, t: Table, b: Ball, m: Memory, ticks: Byte, lose: bool, heads: bool, intercept: Byte)
    requires b.dx != 0
    ensures Plan(side, t, b, Forget(m), ticks, lose, heads, intercept).1 == Predict(b, t).tix
    ensures Plan(side, t, b, ClearBand(m), ticks, lose, heads, intercept).1 == Predict(b, t).tix
    ensures Predict(b, t).crossing.None? ==>
              Plan(side, t, b, Forget(m), ticks, lose, heads, intercept).0.bouncepos == 0 &&
              Plan(side, t, b, ClearBand(m), ticks, lose, heads, intercept).0.bouncepos == m.bouncepos
  {
  }

  /**
    The first part of the frame: travel and reflection, then the goal test.
    A goal re-serves the ball from the centre, spends one draw of the
    generator on the serve angle, clears both keepout bands and both
    "changed" flags, and prints the score again.  Without a goal nothing
    but the ball changes.
   */
  function WallPhase(t: Table, g: Game, o: Outside): (g': Game)
    ensures var moved := LiveStep(g.ball, t);
            if IsGoal(moved.x, t) then
              g'.ball == Serve(t, o.serveDx, o.serveDy) &&
              g'.prng == Prng.Advance(g.prng) &&
              !g'.minuteChanged && !g'.hourChanged &&
              g'.left == ClearBand(g.left) && g'.right == ClearBand(g.right) &&
              g'.score == FormatScore(o.hour, o.minute, o.twelveHour)
            else
              g' == g.(ball := moved)
    ensures g'.leftY == g.leftY && g'.rightY == g.rightY && g'.ticks == g.ticks
  {
    var moved := LiveStep(g.ball, t);
    if IsGoal(moved.x, t) then
      var angleDraw := Crand(g.prng, 0, o.randMax);
      var quadrantDraw := Crand(angleDraw.next, 1, o.randMax);
      g.(ball := Serve(t, o.serveDx, o.serveDy),
         prng := quadrantDraw.next,
         left := ClearBand(g.left),
         right := ClearBand(g.right),
         minuteChanged := false,
         hourChanged := false,
         score := FormatScore(o.hour, o.minute, o.twelveHour))
    else
      g.(ball := moved)
  }

  /** The ball's box at the interpolated contact, as handed to the collision test (both corners passed through `uint8_t`). */
  function ContactBox(x: int, boxY: int): Rect {
    Rect(Wrap8(x), Wrap8(boxY), 2 * BallRadius, 2 * BallRadius)
  }

  /**
    The ball's box at a right-paddle contact: its x is the new ball x moved
    on by the distance the previous x still had to the column.
   */
  function RightContact(t: Table, x: int, prevX: int, boxY: int): Rect {
    ContactBox(x + t.RightPaddleX() - prevX - BallRadius - 2, boxY)
  }

  /** The ball's box at a left-paddle contact: its x is the paddle's right edge. */
  function LeftContact(t: Table, boxY: int): Rect {
    ContactBox(t.LeftPaddleX() + PaddleW, boxY)
  }

  /**
    The y of the ball's box the right contact test builds from the step
    that left (`prevX`, `prevY`) with velocity (`dx`, `dy`): the
    interpolation at the column the ball's right edge reaches, less the
    radius, plus one.
   */
  function RightContactY(t: Table, prevX: int, prevY: int, dx: int, dy: int): int
    requires dx != 0
  {
    CrossingY(prevX + BallRadius + 1, prevY - BallRadius + 1, dx, dy, t.RightPaddleX())
  }

  /**
    The y of the ball's box the left contact test builds from the step
    that left (`prevX`, `prevY`): the interpolation at the face, where the
    ball's centre meets the paddle, less the radius.
   */
  function LeftContactY(t: Table, prevX: int, prevY: int, dx: int, dy: int): int
    requires dx != 0
  {
    CrossingY(prevX, prevY - BallRadius, dx, dy, t.LeftPaddleX() + PaddleW + BallRadius)
  }

  /** The paddle's rectangle as handed to the collision test (its y passed through `uint8_t`). */
  function PaddleBox(x: Byte, y: int): Rect {
    Rect(x, Wrap8(y), PaddleW, PaddleH)
  }

  /**
    A paddle's plan for the frame.  With no band planned it runs the
    look-ahead, takes the interpolated crossing (or keeps the old estimate
    when there was none), orders the band and picks the destination; the
    look-ahead's count becomes the frames left.  With a band planned it
    keeps the memory and only counts a frame down.  A fresh band starts at
    the smaller estimate; a losing destination lies wholly above or below
    it, and a winning one spans the ball at the expected bounce.
   */
  function Plan(side: Side, t: Table, b: Ball, m: Memory, ticks: Byte, lose: bool, heads: bool, intercept: Byte): (r: (Memory, Byte))
    requires b.dx != 0
    ensures m.keepoutTop != 0 ==> r.0 == m && (r.1 + 1 - ticks) % 256 == 0
    ensures m.keepoutTop == 0 ==> r.1 == Predict(b, t).tix
    ensures m.keepoutTop == 0 ==>
              r.0.bouncepos == (if Predict(b, t).crossing.Some? then intercept else m.bouncepos)
    ensures m.keepoutTop == 0 ==> r.0.keepoutTop <= r.0.bouncepos && r.0.keepoutTop <= r.0.endpos
    ensures m.keepoutTop == 0 ==> r.0.keepoutTop == r.0.bouncepos || r.0.keepoutTop == r.0.endpos
    ensures m.keepoutTop == 0 && lose && r.0.keepoutTop <= r.0.keepoutBot ==>
              r.0.dest + PaddleH < r.0.keepoutTop || r.0.dest > r.0.keepoutBot
    ensures m.keepoutTop == 0 && !lose ==>
              r.0.dest <= r.0.bouncepos - BallRadius && r.0.bouncepos + BallRadius <= r.0.dest + PaddleH
  {
    if m.keepoutTop != 0 then (m, Wrap8(ticks - 1))
    else
      var p := Predict(b, t);
      var bouncepos := if p.crossing.Some? then intercept else m.bouncepos;
      var endpos := Wrap8(p.endY);
      var k := Keepout(side, bouncepos, endpos);
      (Memory(bouncepos, endpos, k.top, k.bot, Destination(lose, bouncepos, k, t.h, heads)), p.tix)
  }

  /**
    The right paddle's part of a frame with the ball heading right.  A ball
    that reaches the paddle's column this frame is tested against the
    paddle; a hit puts it against the paddle, turns it round and drops both
    paddles' plans.  A ball still short of the column has the right paddle
    plan (it loses when the hour has changed) and step.
   */
  function RightPhase(t: Table, g: Game, prev: Ball, o: Outside): (g': Game)
    requires g.ball.dx > 0
    ensures g'.leftY == g.leftY && g'.prng == g.prng && g'.score == g.score
    ensures g'.minuteChanged == g.minuteChanged && g'.hourChanged == g.hourChanged
    ensures Abs(g'.rightY - g.rightY) <= MaxPaddleSpeed
    ensures g'.ball.dx == g.ball.dx || g'.ball.dx == -g.ball.dx
    ensures g'.ball.dy == g.ball.dy
  {
    var rpx := t.RightPaddleX();
    var b := g.ball;
    var reaches := b.x + BallRadius + 1 >= rpx && prev.x + BallRadius + 1 <= rpx;
    var hit := reaches && Intersects(RightContact(t, b.x, prev.x, o.boxY), PaddleBox(rpx, g.rightY));
    var g1 := if hit then
                g.(ball := Ball(rpx - BallRadius - 1, o.contactY, -b.dx, b.dy),
                   left := Forget(g.left),
                   right := Forget(g.right))
              else g;
    if g1.ball.dx > 0 && g1.ball.x + BallRadius + 1 < rpx then
      var plan := Plan(Right, t, g1.ball, g1.right, g1.ticks, g1.hourChanged, Coin(g1.prng), o.intercept);
      g1.(right := plan.0, ticks := plan.1, rightY := PaddleStep(g1.rightY, plan.0.dest, plan.1))
    else g1
  }

  /**
    The left paddle's part of a frame with the ball not heading right.  A
    ball that reaches the paddle's face this frame is tested against the
    paddle; a hit turns it round, puts it against the face unless it is
    already there, and drops the left paddle's plan only.  A ball heading
    left still beyond the paddle has the left paddle plan (it loses when
    the minute has changed) and step.
   */
  function LeftPhase(t: Table, g: Game, prev: Ball, o: Outside): (g': Game)
    requires g.ball.dx <= 0
    ensures g'.rightY == g.rightY && g'.right == g.right && g'.prng == g.prng && g'.score == g.score
    ensures g'.minuteChanged == g.minuteChanged && g'.hourChanged == g.hourChanged
    ensures Abs(g'.leftY - g.leftY) <= MaxPaddleSpeed
    ensures g'.ball.dx == g.ball.dx || g'.ball.dx == -g.ball.dx
    ensures g'.ball.dy == g.ball.dy
  {
    var lpx := t.LeftPaddleX();
    var face := lpx + PaddleW + BallRadius;
    var b := g.ball;
    var reaches := CrossesFace(prev.x, b.x, t);
    var hit := reaches && Intersects(LeftContact(t, o.boxY), PaddleBox(lpx, g.leftY));
    var g1 := if hit then
                g.(ball := if b.x != face then Ball(face, o.contactY, -b.dx, b.dy) else b.(dx := -b.dx),
                   left := Forget(g.left))
              else g;
    if g1.ball.dx < 0 && g1.ball.x > lpx + BallRadius then
      var plan := Plan(Left, t, g1.ball, g1.left, g1.ticks, g1.minuteChanged, Coin(g1.prng), o.intercept);
      g1.(left := plan.0, ticks := plan.1, leftY := PaddleStep(g1.leftY, plan.0.dest, plan.1))
    else g1
  }

  /** The last part of the frame: both paddles clamped between the bars. */
  function ClampPhase(t: Table, g: Game): (g': Game)
    ensures g'.leftY == Clamp(g.leftY, t) && g'.rightY == Clamp(g.rightY, t)
    ensures g' == g.(leftY := g'.leftY, rightY := g'.rightY)
  {
    g.(leftY := Clamp(g.leftY, t), rightY := Clamp(g.rightY, t))
  }

  /** The whole frame. */
  function Step(t: Table, g: Game, o: Outside): (g': Game)
    ensures t.PaddleTop() <= t.PaddleBottom() ==>
              t.PaddleTop() <= g'.leftY <= t.PaddleBottom() && t.PaddleTop() <= g'.rightY <= t.PaddleBottom()
  {
    var g1 := WallPhase(t, g, o);
    var g2 := if g1.ball.dx > 0 then RightPhase(t, g1, g.ball, o) else LeftPhase(t, g1, g.ball, o);
    ClampPhase(t, g2)
  }

  /**
    A goal clears both "changed" flags, spends exactly one encipherment of
    the generator and prints the score again; a frame without a goal leaves
    the flags, the generator and the score alone.
   */
  lemma GoalResets(t: Table, g: Game, o: Outside)
    ensures var g' := Step(t, g, o);
            if IsGoal(LiveStep(g.ball, t).x, t) then
              !g'.minuteChanged && !g'.hourChanged && g'.prng == Prng.Advance(g.prng) &&
              g'.score == FormatScore(o.hour, o.minute, o.twelveHour)
            else
              g'.minuteChanged == g.minuteChanged && g'.hourChanged == g.hourChanged &&
              g'.prng == g.prng && g'.score == g.score
  {
  }

  /**
    Between goals the ball's speed is kept: each axis of the velocity is at
    most turned round.
   */
  lemma SpeedKept(t: Table, g: Game, o: Outside)
    requires !IsGoal(LiveStep(g.ball, t).x, t)
    ensures var b' := Step(t, g, o).ball;
            b'.dx * b'.dx == g.ball.dx * g.ball.dx && b'.dy * b'.dy == g.ball.dy * g.ball.dy
  {
    var b' := Step(t, g, o).ball;
    VelocityTurnsAtMost(t, g, o);
    SameSquare(b'.dx, g.ball.dx);
    SameSquare(b'.dy, g.ball.dy);
  }

  /** Between goals, a frame at most turns each velocity component round. */
  lemma VelocityTurnsAtMost(t: Table, g: Game, o: Outside)
    requires !IsGoal(LiveStep(g.ball, t).x, t)
    ensures var b' := Step(t, g, o).ball;
            (b'.dx == g.ball.dx || b'.dx == -g.ball.dx) && (b'.dy == g.ball.dy || b'.dy == -g.ball.dy)
  {
    var g1 := WallPhase(t, g, o);
    assert g1.ball == LiveStep(g.ball, t);
    var g2 := if g1.ball.dx > 0 then RightPhase(t, g1, g.ball, o) else LeftPhase(t, g1, g.ball, o);
    assert Step(t, g, o).ball == g2.ball;
    assert g2.ball.dx == g.ball.dx || g2.ball.dx == -g.ball.dx;
    assert g2.ball.dy == g1.ball.dy;
  }

  /** A number and its negation have the same square. */
  lemma SameSquare(x: int, y: int)
    requires x == y || x == -y
    ensures x * x == y * y
  {
  }

  /**
    From between the bars, a paddle travels at most the top speed in a
    frame, and the paddle the ball is moving away from does not move.
   */
  lemma PaddleTravel(t: Table, g: Game, o: Outside)
    requires t.PaddleTop() <= g.leftY <= t.PaddleBottom()
    requires t.PaddleTop() <= g.rightY <= t.PaddleBottom()
    ensures var g' := Step(t, g, o);
            Abs(g'.leftY - g.leftY) <= MaxPaddleSpeed && Abs(g'.rightY - g.rightY) <= MaxPaddleSpeed
    ensures var g' := Step(t, g, o);
            WallPhase(t, g, o).ball.dx > 0 ==> g'.leftY == g.leftY
    ensures var g' := Step(t, g, o);
            WallPhase(t, g, o).ball.dx <= 0 ==> g'.rightY == g.rightY
  {
  }

  /**
    On the right the look-ahead and the contact test interpolate at the
    same column, so the ball's box starts one pixel above the estimate
    taken from the same step.
   */
  lemma RightBoxAtBounce(t: Table, cr: Crossing, dx: int)
    requires cr.side == Right && dx != 0
    ensures RightContactY(t, cr.fromX, cr.fromY, dx, cr.dy) == BounceY(cr, dx, t) - BallRadius + 1
  {
    CrossingYShift(cr.fromX + BallRadius + 1, cr.fromY, dx, cr.dy, t.RightPaddleX(), -BallRadius + 1);
  }

  /**
    At the face, where the contact test interpolates, the ball's box starts
    `BALL_RADIUS` above the interpolated y.
   */
  lemma LeftBoxAtFace(t: Table, cr: Crossing, dx: int)
    requires dx != 0
    ensures LeftContactY(t, cr.fromX, cr.fromY, dx, cr.dy) == FaceBounceY(cr, dx, t) - BallRadius
  {
    CrossingYShift(cr.fromX, cr.fromY, dx, cr.dy, t.LeftPaddleX() + PaddleW + BallRadius, -BallRadius);
  }

  /**
    On the left the look-ahead interpolates at the paddle's edge, two
    columns past the face the contact test uses.  So, from the same step,
    the ball's box lies at or above the estimate less the radius when the
    ball moves down, and at or below it when the ball moves up.
   */
  lemma LeftBoxOffBounce(t: Table, cr: Crossing, dx: int)
    requires cr.side == Left && dx < 0
    ensures cr.dy >= 0 ==> LeftContactY(t, cr.fromX, cr.fromY, dx, cr.dy) <= BounceY(cr, dx, t) - BallRadius
    ensures cr.dy <= 0 ==> LeftContactY(t, cr.fromX, cr.fromY, dx, cr.dy) >= BounceY(cr, dx, t) - BallRadius
  {
    LeftBoxAtFace(t, cr, dx);
    CrossingYMonotone(cr.fromX, cr.fromY, dx, cr.dy, t.LeftPaddleX() + PaddleW, t.LeftPaddleX() + PaddleW + BallRadius);
  }

  /**
    As written, a right paddle sent below the band can touch the ball.  When
    the expected bounce is the lower estimate, the band ends one pixel below
    it, and `keepout_bot + 2` puts the paddle's top on the bottom edge of
    the box the contact test builds from the same step; touching edges
    collide.  Sent above the band, the paddle clears the box.
   */
  lemma RightMissAsWritten(t: Table, cr: Crossing, dx: int, e: Byte, h: int, heads: bool)
    requires cr.side == Right && 0 < dx <= 2 * BallRadius + PaddleW
    requires cr.fromX + BallRadius + 1 <= t.RightPaddleX() <= cr.fromX + dx + BallRadius + 1
    requires 2 * BallRadius <= t.RightPaddleX() <= 255 - PaddleW
    requires BallRadius - 1 <= BounceY(cr, dx, t) <= 255 - BallRadius - 1
    ensures var c := BounceY(cr, dx, t);
            var k := Keepout(Right, c, e);
            var box := RightContact(t, cr.fromX + dx, cr.fromX, RightContactY(t, cr.fromX, cr.fromY, dx, cr.dy));
            e <= c && Destination(true, c, k, h, heads) == BelowBand(k) ==>
              Intersects(box, PaddleBox(t.RightPaddleX(), Destination(true, c, k, h, heads)))
    ensures var c := BounceY(cr, dx, t);
            var k := Keepout(Right, c, e);
            var box := RightContact(t, cr.fromX + dx, cr.fromX, RightContactY(t, cr.fromX, cr.fromY, dx, cr.dy));
            Destination(true, c, k, h, heads) == AboveBand(k) && PaddleH + 2 <= k.top ==>
              !Intersects(box, PaddleBox(t.RightPaddleX(), Destination(true, c, k, h, heads)))
  {
    RightBoxAtBounce(t, cr, dx);
  }

  /**
    As written, a left paddle can touch the ball on either side of the
    band.  Sent above it when the bounce is the upper estimate, the paddle
    ends two pixels above the estimate, and a ball moving down has its box
    start no lower than that.  Sent below it when the bounce is the lower
    estimate, the paddle starts four pixels below the estimate, which a
    box starting at or below the estimate reaches.
   */
  lemma LeftMissAsWritten(t: Table, cr: Crossing, dx: int, e: Byte, h: int, heads: bool)
    requires cr.side == Left && dx < 0
    requires 0 <= BounceY(cr, dx, t) < 256
    ensures var c := BounceY(cr, dx, t);
            var k := Keepout(Left, c, e);
            var box := LeftContactY(t, cr.fromX, cr.fromY, dx, cr.dy);
            c <= e && Destination(true, c, k, h, heads) == AboveBand(k) && PaddleH + 2 <= k.top &&
            cr.dy >= 0 && 0 <= box && c - PaddleH - 2 * BallRadius - 2 <= box ==>
              Intersects(LeftContact(t, box), PaddleBox(t.LeftPaddleX(), Destination(true, c, k, h, heads)))
    ensures var c := BounceY(cr, dx, t);
            var k := Keepout(Left, c, e);
            var box := LeftContactY(t, cr.fromX, cr.fromY, dx, cr.dy);
            e <= c && Destination(true, c, k, h, heads) == BelowBand(k) && c + BallRadius + 2 < 256 &&
            c <= box <= c + PaddleH + BallRadius + 2 && box < 256 ==>
              Intersects(LeftContact(t, box), PaddleBox(t.LeftPaddleX(), Destination(true, c, k, h, heads)))
  {
    LeftBoxOffBounce(t, cr, dx);
  }

  /** The touch on the right paddle, on a 144-wide table: bounce 30, end 20, ball moving right by 1. */
  lemma RightMissTouchExample()
    ensures Table(144, 168).RightPaddleX() == 139
    ensures Destination(true, 30, Keepout(Right, 30, 20), 168, false) == 33
    ensures Intersects(RightContact(Table(144, 168), 137, 136, 29), PaddleBox(139, 33))
  {
  }

  /**
    The look-ahead of the two left examples below, on a 144 by 168 table:
    three frames counted, the crossing step, and the end y.
   */
  lemma LeftExamplePredictions()
    ensures Predict(Ball(20, 112, -4, -4), Table(144, 168)) == Outcome(3, Some(Crossing(Left, 8, 100, -4)), 92)
    ensures Predict(Ball(20, 30, -4, 4), Table(144, 168)) == Outcome(3, Some(Crossing(Left, 8, 42, 4)), 50)
  {
  }

  /**
    A left paddle sent below touches the ball: from (20, 112) moving
    (-4, -4) the look-ahead estimates 97 and ends at 92 (see
    `LeftExamplePredictions`), the coin says
    tails, and the contact test builds the box at 97.
   */
  lemma LeftBelowTouchExample()
    ensures BounceY(Crossing(Left, 8, 100, -4), -4, Table(144, 168)) == 97
    ensures LeftContactY(Table(144, 168), 8, 100, -4, -4) == 97
    ensures Destination(true, 97, Keepout(Left, 97, 92), 168, false) == 101
    ensures Intersects(LeftContact(Table(144, 168), 97), PaddleBox(2, 101))
  {
  }

  /**
    A left paddle sent above touches the ball: from (20, 30) moving (-4, 4)
    the look-ahead estimates 45 and ends at 50 (see
    `LeftExamplePredictions`), the coin says heads, and
    the contact test builds the box at 41.  With the estimate taken at the
    face (43) and a clear pixel of room, the paddle misses.
   */
  lemma LeftAboveTouchExample()
    ensures BounceY(Crossing(Left, 8, 42, 4), -4, Table(144, 168)) == 45
    ensures LeftContactY(Table(144, 168), 8, 42, -4, 4) == 41
    ensures Destination(true, 45, Keepout(Left, 45, 50), 168, true) == 23
    ensures Intersects(LeftContact(Table(144, 168), 41), PaddleBox(2, 23))
    ensures FaceBounceY(Crossing(Left, 8, 42, 4), -4, Table(144, 168)) == 43
    ensures ClearDestination(true, 43, Keepout(Left, 43, 50), 168, true) == 20
    ensures !Intersects(LeftContact(Table(144, 168), 41), PaddleBox(2, 20))
  {
  }

  /**
    Corrected on the right: with a clear pixel of room, a losing right
    paddle that reaches its destination misses the box the contact test
    builds from the crossing step.
   */
  lemma ClearRightMissAvoidsBall(t: Table, cr: Crossing, dx: int, e: Byte, h: int, heads: bool)
    requires cr.side == Right && dx != 0
    requires BallRadius <= BounceY(cr, dx, t)
    requires BounceY(cr, dx, t) + BallRadius + 3 < 256 && e + BallRadius + 3 < 256
    ensures var c := BounceY(cr, dx, t);
            var k := Keepout(Right, c, e);
            var dest := ClearDestination(true, c, k, h, heads);
            var box := RightContact(t, cr.fromX + dx, cr.fromX, RightContactY(t, cr.fromX, cr.fromY, dx, cr.dy));
            PaddleH + 3 <= k.top || dest == ClearBelowBand(k) ==>
              !Intersects(box, PaddleBox(t.RightPaddleX(), dest))
  {
    RightBoxAtBounce(t, cr, dx);
  }

  /**
    Corrected on the left: the look-ahead takes its estimate at the face
    (`FaceBounceY`), the column the contact test uses, and the paddle keeps
    a clear pixel of room.  A losing left paddle that reaches its
    destination then misses the box the contact test builds from the
    crossing step.
   */
  lemma ClearLeftMissAvoidsBall(t: Table, cr: Crossing, dx: int, e: Byte, h: int, heads: bool)
    requires dx != 0
    requires BallRadius <= FaceBounceY(cr, dx, t)
    requires FaceBounceY(cr, dx, t) + BallRadius + 3 < 256 && e + BallRadius + 3 < 256
    ensures var c := FaceBounceY(cr, dx, t);
            var k := Keepout(Left, c, e);
            var dest := ClearDestination(true, c, k, h, heads);
            PaddleH + 3 <= k.top || dest == ClearBelowBand(k) ==>
              !Intersects(LeftContact(t, LeftContactY(t, cr.fromX, cr.fromY, dx, cr.dy)), PaddleBox(t.LeftPaddleX(), dest))
  {
    LeftBoxAtFace(t, cr, dx);
  }
}

=== FILE: geometry.dfy ===
/**
  The rectangle-overlap test the ball/paddle collision uses.  A rectangle is
  its top-left corner and its extent; it covers the closed ranges
  `[x, x + w]` and `[y, y + h]`, so two rectangles whose edges merely touch
  overlap.
 */
module Geometry {

  /** An axis-aligned rectangle.  The extents are never negative. */
  datatype Rect = Rect(x: int, y: int, w: nat, h: nat)

  /** Whether the closed interval `[lo, lo + len]` contains `p`. */
  predicate InSpan(lo: int, len: nat, p: int) {
    lo <= p <= lo + len
  }

  /** Whether the rectangle covers the point `(px, py)`. */
  predicate Covers(r: Rect, px: int, py: int) {
    InSpan(r.x, r.w, px) && InSpan(r.y, r.h, py)
  }

  /** Whether the two spans have a point in common: neither lies wholly beyond the other. */
  predicate SpansMeet(lo1: int, len1: nat, lo2: int, len2: nat) {
    !(lo1 + len1 < lo2) && !(lo2 + len2 < lo1)
  }

  /**
    `intersectrect`: the rectangles overlap unless one lies strictly to the
    left of, or strictly above, the other.
   */
  predicate Intersects(a: Rect, b: Rect) {
    SpansMeet(a.x, a.w, b.x, b.w) && SpansMeet(a.y, a.h, b.y, b.h)
  }

  /** The reference meaning of overlap: some point lies in both rectangles. */
  ghost predicate ShareAPoint(a: Rect, b: Rect) {
    exists px: int, py: int :: Covers(a, px, py) && Covers(b, px, py)
  }

  /** Two spans meet exactly when some point lies in both; the later of the two starts is one. */
  lemma SpansMeetWitness(lo1: int, len1: nat, lo2: int, len2: nat)
    ensures SpansMeet(lo1, len1, lo2, len2) <==>
              (InSpan(lo1, len1, Max(lo1, lo2)) && InSpan(lo2, len2, Max(lo1, lo2)))
    ensures forall p :: InSpan(lo1, len1, p) && InSpan(lo2, len2, p) ==> SpansMeet(lo1, len1, lo2, len2)
  {
  }

  /** The larger of two integers. */
  function Max(a: int, b: int): (m: int)
    ensures m >= a && m >= b
    ensures m == a || m == b
  {
    if a >= b then a else b
  }

  /** The overlap test agrees with the shared-point meaning, in both directions. */
  lemma IntersectsIffShareAPoint(a: Rect, b: Rect)
    ensures Intersects(a, b) <==> ShareAPoint(a, b)
  {
    SpansMeetWitness(a.x, a.w, b.x, b.w);
    SpansMeetWitness(a.y, a.h, b.y, b.h);
    if Intersects(a, b) {
      var px, py := Max(a.x, b.x), Max(a.y, b.y);
      assert Covers(a, px, py) && Covers(b, px, py);
    }
    if ShareAPoint(a, b) {
      var px, py :| Covers(a, px, py) && Covers(b, px, py);
      assert InSpan(a.x, a.w, px) && InSpan(b.x, b.w, px);
      assert InSpan(a.y, a.h, py) && InSpan(b.y, b.h, py);
    }
  }

  /** Swapping the two rectangles does not change the answer. */
  lemma IntersectsSymmetric(a: Rect, b: Rect)
    ensures Intersects(a, b) <==> Intersects(b, a)
  {
  }

  /** Rectangles side by side whose edges only touch count as overlapping. */
  lemma TouchingEdgesIntersect(a: Rect, b: Rect)
    requires b.x == a.x + a.w
    requires SpansMeet(a.y, a.h, b.y, b.h)
    ensures Intersects(a, b)
  {
  }

  /** One pixel of daylight between the edges on either axis is enough to miss. */
  lemma GapSeparates(a: Rect, b: Rect)
    requires b.x == a.x + a.w + 1 || b.y == a.y + a.h + 1
    ensures !Intersects(a, b)
  {
  }
}

=== FILE: lookahead.dfy ===
/**
  `calculate_keepout`: the AI's look-ahead.  A private copy of the ball
  travels and reflects off the bars (with the look-ahead's own top bound)
  while it is between the paddles' columns.  The frames are counted until
  the copy first crosses the near edge of a paddle's column; the copy then
  travels on, uncounted, until it leaves the space between the columns,
  and its last y is the second estimate.  The interpolated y at the
  crossing is floating-point arithmetic: the model records the step that
  crossed, and the frame takes the interpolated value as an input.
 */
module LookAhead {
  import opened Config
  import opened BallStep
  import opened PaddleAi

  /**
    The step on which the copy crossed a paddle's near edge: the side, and
    the copy's position before the step and its vertical velocity after
    it.  These are what the interpolation of the estimate reads
    (`BounceY`).
   */
  datatype Crossing = Crossing(side: Side, fromX: int, fromY: int, dy: int)

  /** What the look-ahead reports: the counted frames (a `uint8_t`), the last crossing if any, and the copy's last y. */
  datatype Outcome = Outcome(tix: Byte, crossing: Option<Crossing>, endY: int)

  /** Whether the copy is still between the columns, so the look-ahead goes on. */
  predicate InPlay(x: int, t: Table) {
    x + BallRadius + 1 < t.RightPaddleX() + PaddleW && x + BallRadius > t.LeftPaddleX()
  }

  /** Whether a step from `oldX` to `newX` carries the ball's right edge onto the right paddle's column. */
  predicate CrossesRight(oldX: int, newX: int, t: Table) {
    newX + BallRadius + 1 >= t.RightPaddleX() && oldX + BallRadius + 1 < t.RightPaddleX()
  }

  /** Whether a step from `oldX` to `newX` carries the ball's centre onto the left paddle's face. */
  predicate CrossesLeft(oldX: int, newX: int, t: Table) {
    newX <= t.LeftPaddleX() + PaddleW && oldX > t.LeftPaddleX() + PaddleW
  }

  /** How far the copy still has to travel before it leaves, towards the side it is heading for. */
  function Remaining(b: Ball, t: Table): int {
    if b.dx > 0 then t.RightPaddleX() - b.x else b.x + BallRadius - t.LeftPaddleX()
  }

  /** The crossing a step from `b` to `n` makes, if any; the right edge is tested first. */
  function CrossingOf(b: Ball, n: Ball, t: Table): (c: Option<Crossing>)
    ensures c.Some? <==> CrossesRight(b.x, n.x, t) || CrossesLeft(b.x, n.x, t)
    ensures c.Some? ==> c.value.fromX == b.x && c.value.fromY == b.y && c.value.dy == n.dy
    ensures c.Some? ==> (c.value.side == Right <==> CrossesRight(b.x, n.x, t))
  {
    if CrossesRight(b.x, n.x, t) then Some(Crossing(Right, b.x, b.y, n.dy))
    else if CrossesLeft(b.x, n.x, t) then Some(Crossing(Left, b.x, b.y, n.dy))
    else None
  }

  /**
    The look-ahead from the copy `b`, having counted `tix` frames and seen
    `crossing` so far.  It stops only if the copy moves sideways.  Once a
    crossing has been seen the count no longer changes; the last y lies
    between the look-ahead's bounds whenever at least one step is taken.
   */
  function Simulate(b: Ball, t: Table, tix: Byte, crossing: Option<Crossing>): (o: Outcome)
    requires b.dx != 0
    ensures crossing.Some? ==> o.tix == tix && o.crossing.Some?
    ensures o.crossing.None? ==> crossing.None?
    ensures !InPlay(b.x, t) ==> o.endY == b.y
    ensures InPlay(b.x, t) && LookAheadBallTop <= BallBottom(t) ==>
              LookAheadBallTop <= o.endY <= BallBottom(t)
    decreases Remaining(b, t)
  {
    if !InPlay(b.x, t) then Outcome(tix, crossing, b.y)
    else
      var n := LookAheadStep(b, t);
      var c := CrossingOf(b, n, t);
      var seen := if c.Some? then c else crossing;
      Simulate(n, t, if seen.Some? then tix else Wrap8(tix + 1), seen)
  }

  /** `calculate_keepout` on the live ball: nothing counted, nothing crossed yet. */
  function Predict(b: Ball, t: Table): Outcome
    requires b.dx != 0
  {
    Simulate(b, t, 0, None)
  }

  /** A positive multiple of a positive number is at least that number. */
  lemma MulAtLeast(d: int, k: int)
    requires d > 0 && k >= 1
    ensures d * k >= d
  {
    assert d * k == d * (k - 1) + d;
  }

  /** Euclidean division has one quotient: any `q` with a remainder in `[0, d)` is it. */
  lemma DivUnique(a: int, d: int, q: int, r: int)
    requires d > 0 && 0 <= r < d && a == d * q + r
    ensures a / d == q
  {
    var q0, r0 := a / d, a % d;
    assert a == d * q0 + r0;
    if q > q0 {
      MulAtLeast(d, q - q0);
    } else if q < q0 {
      MulAtLeast(d, q0 - q);
    }
  }

  /** Quotient step: taking one divisor off the dividend takes one off the quotient. */
  lemma DivStep(a: int, d: int)
    requires d > 0 && a >= d
    ensures (a - d) / d == a / d - 1
  {
    var q, r := a / d, a % d;
    assert a == d * q + r;
    DivUnique(a - d, d, q - 1, r);
  }

  /** A dividend below the divisor has quotient zero. */
  lemma DivSmall(a: int, d: int)
    requires 0 <= a < d
    ensures a / d == 0
  {
    DivUnique(a, d, 0, a);
  }

  /** Adding one through a `uint8_t` and then more is the same as adding it all at once. */
  lemma WrapAddOne(tix: Byte, k: int)
    ensures Wrap8(Wrap8(tix + 1) + k) == Wrap8(tix + 1 + k)
  {
  }

  /**
    After a rightward copy has reached the right column, the recorded
    crossing and the count stay as they are.
   */
  lemma {:induction false} RightwardSettled(b: Ball, t: Table, tix: Byte, c: Crossing)
    requires b.dx > 0
    requires b.x + BallRadius + 1 >= t.RightPaddleX()
    ensures Simulate(b, t, tix, Some(c)) == Outcome(tix, Some(c), Simulate(b, t, tix, Some(c)).endY)
    decreases Remaining(b, t)
  {
    if InPlay(b.x, t) {
      var n := LookAheadStep(b, t);
      assert CrossingOf(b, n, t).None?;
      RightwardSettled(n, t, tix, c);
    }
  }

  /**
    A copy heading right from inside the near side of the right column
    crosses it, on the right, after `(rpx - x - 4) / dx` counted frames
    (reduced modulo 256), where `rpx` is the right paddle's column.
   */
  lemma {:induction false} RightwardCount(b: Ball, t: Table, tix: Byte)
    requires b.dx > 0
    requires InPlay(b.x, t)
    requires b.x + BallRadius + 1 < t.RightPaddleX()
    ensures var o := Simulate(b, t, tix, None);
            o.crossing.Some? && o.crossing.value.side == Right &&
            o.tix == Wrap8(tix + (t.RightPaddleX() - b.x - BallRadius - 2) / b.dx)
    decreases Remaining(b, t)
  {
    var rpx := t.RightPaddleX();
    var n := LookAheadStep(b, t);
    assert n.x == b.x + b.dx && n.dx == b.dx;
    var c := CrossingOf(b, n, t);
    if n.x + BallRadius + 1 >= rpx {
      assert c == Some(Crossing(Right, b.x, b.y, n.dy));
      assert Simulate(b, t, tix, None) == Simulate(n, t, tix, c);
      RightwardSettled(n, t, tix, c.value);
      DivSmall(rpx - b.x - BallRadius - 2, b.dx);
    } else {
      assert c.None?;
      var next := Wrap8(tix + 1);
      assert Simulate(b, t, tix, None) == Simulate(n, t, next, None);
      RightwardCount(n, t, next);
      var k := (rpx - n.x - BallRadius - 2) / b.dx;
      DivStep(rpx - b.x - BallRadius - 2, b.dx);
      assert k + 1 == (rpx - b.x - BallRadius - 2) / b.dx;
      WrapAddOne(tix, k);
    }
  }

  /**
    After a leftward copy has passed the left paddle's face, the recorded
    crossing and the count stay as they are.
   */
  lemma {:induction false} LeftwardSettled(b: Ball, t: Table, tix: Byte, c: Crossing)
    requires b.dx < 0
    requires b.x <= t.LeftPaddleX() + PaddleW
    ensures Simulate(b, t, tix, Some(c)) == Outcome(tix, Some(c), Simulate(b, t, tix, Some(c)).endY)
    decreases Remaining(b, t)
  {
    if InPlay(b.x, t) {
      var n := LookAheadStep(b, t);
      assert CrossingOf(b, n, t).None?;
      LeftwardSettled(n, t, tix, c);
    }
  }

  /**
    A copy heading left from beyond the left paddle's face crosses it, on
    the left, after `(x - lpx - 4) / -dx` counted frames (reduced modulo
    256), where `lpx` is the left paddle's column.
   */
  lemma {:induction false} LeftwardCount(b: Ball, t: Table, tix: Byte)
    requires b.dx < 0
    requires InPlay(b.x, t)
    requires b.x > t.LeftPaddleX() + PaddleW
    ensures var o := Simulate(b, t, tix, None);
            o.crossing.Some? && o.crossing.value.side == Left &&
            o.tix == Wrap8(tix + (b.x - t.LeftPaddleX() - PaddleW - 1) / -b.dx)
    decreases Remaining(b, t)
  {
    var lpx := t.LeftPaddleX();
    var n := LookAheadStep(b, t);
    assert n.x == b.x + b.dx && n.dx == b.dx;
    var c := CrossingOf(b, n, t);
    if n.x <= lpx + PaddleW {
      assert c == Some(Crossing(Left, b.x, b.y, n.dy));
      assert Simulate(b, t, tix, None) == Simulate(n, t, tix, c);
      LeftwardSettled(n, t, tix, c.value);
      DivSmall(b.x - lpx - PaddleW - 1, -b.dx);
    } else {
      assert c.None?;
      var next := Wrap8(tix + 1);
      assert Simulate(b, t, tix, None) == Simulate(n, t, next, None);
      LeftwardCount(n, t, next);
      var k := (n.x - lpx - PaddleW - 1) / -b.dx;
      DivStep(b.x - lpx - PaddleW - 1, -b.dx);
      assert k + 1 == (b.x - lpx - PaddleW - 1) / -b.dx;
      WrapAddOne(tix, k);
    }
  }

  /**
    A copy heading left that starts no further out than the left paddle's
    face never crosses it: every step is counted until the copy leaves, so
    the count is `(x + 1 - lpx) / -dx + 1` (reduced modulo 256), where
    `lpx` is the left paddle's column.
   */
  lemma {:induction false} LeftwardFromFace(b: Ball, t: Table, tix: Byte)
    requires b.dx < 0
    requires InPlay(b.x, t)
    requires b.x <= t.LeftPaddleX() + PaddleW
    ensures var o := Simulate(b, t, tix, None);
            o.crossing.None? &&
            o.tix == Wrap8(tix + (b.x + 1 - t.LeftPaddleX()) / -b.dx + 1)
    decreases Remaining(b, t)
  {
    var lpx := t.LeftPaddleX();
    var n := LookAheadStep(b, t);
    assert n.x == b.x + b.dx && n.dx == b.dx;
    assert CrossingOf(b, n, t).None?;
    var next := Wrap8(tix + 1);
    assert Simulate(b, t, tix, None) == Simulate(n, t, next, None);
    if InPlay(n.x, t) {
      LeftwardFromFace(n, t, next);
      var k := (n.x + 1 - lpx) / -b.dx;
      DivStep(b.x + 1 - lpx, -b.dx);
      assert k + 1 == (b.x + 1 - lpx) / -b.dx;
      WrapAddOne(tix, k + 1);
    } else {
      DivSmall(b.x + 1 - lpx, -b.dx);
    }
  }

  /**
    The look-ahead as the source writes it: a loop over the copy's
    position and vertical velocity, a sticky "collided" flag, and a
    `uint8_t` frame counter.  It computes `Predict`.
   */
  method CalculateKeepout(b: Ball, t: Table) returns (tix: Byte, crossing: Option<Crossing>, endY: int)
    requires b.dx != 0
    ensures Outcome(tix, crossing, endY) == Predict(b, t)
  {
    var x, y, dy := b.x, b.y, b.dy;
    tix, crossing := 0, None;
    var collided := false;
    while InPlay(x, t)
      invariant collided <==> crossing.Some?
      invariant Simulate(Ball(x, y, b.dx, dy), t, tix, crossing) == Predict(b, t)
      decreases Remaining(Ball(x, y, b.dx, dy), t)
    {
      ghost var before := Ball(x, y, b.dx, dy);
      var oldX, oldY := x, y;
      x, y := x + b.dx, y + dy;
      if y > BallBottom(t) {
        y, dy := BallBottom(t), -dy;
      }
      if y < LookAheadBallTop {
        y, dy := LookAheadBallTop, -dy;
      }
      ghost var after := Ball(x, y, b.dx, dy);
      assert after == LookAheadStep(before, t);
      if CrossesRight(oldX, x, t) {
        crossing, collided := Some(Crossing(Right, oldX, oldY, dy)), true;
      } else if CrossesLeft(oldX, x, t) {
        crossing, collided := Some(Crossing(Left, oldX, oldY, dy)), true;
      }
      if !collided {
        tix := Wrap8(tix + 1);
      }
    }
    endY := y;
  }

  /**
    The y at which the step from (`fromX`, `fromY`) with velocity
    (`dx`, `dy`) meets column `col`: the start y plus the share of `dy`
    carried by the fraction of `dx` needed to reach the column, cut to a
    whole pixel.  The cut is the floor, which is what the `uint8_t`
    conversion of a non-negative value does; float rounding is not
    modelled.
   */
  function CrossingY(fromX: int, fromY: int, dx: int, dy: int, col: int): int
    requires dx != 0
  {
    if dx > 0 then (fromY * dx + (col - fromX) * dy) / dx
    else (fromY * -dx - (col - fromX) * dy) / -dx
  }

  /** A multiple of the divisor added to the dividend adds as much to the quotient. */
  lemma DivAddMultiple(a: int, d: int, k: int)
    requires d > 0
    ensures (a + k * d) / d == a / d + k
  {
    var q, r := a / d, a % d;
    assert a == d * q + r;
    assert a + k * d == d * (q + k) + r;
    DivUnique(a + k * d, d, q + k, r);
  }

  /** Division by a positive number keeps the order of the dividends. */
  lemma DivMonotone(a: int, b: int, d: int)
    requires d > 0 && a <= b
    ensures a / d <= b / d
  {
    var qa, qb := a / d, b / d;
    assert a == d * qa + a % d && b == d * qb + b % d;
    if qa > qb {
      assert d * qa == d * qb + d * (qa - qb);
      MulAtLeast(d, qa - qb);
    }
  }

  /** The interpolation meets the step's own ends: the start y at the start column, the end y at the end column. */
  lemma CrossingYEnds(fromX: int, fromY: int, dx: int, dy: int)
    requires dx != 0
    ensures CrossingY(fromX, fromY, dx, dy, fromX) == fromY
    ensures CrossingY(fromX, fromY, dx, dy, fromX + dx) == fromY + dy
  {
    var d := if dx > 0 then dx else -dx;
    DivAddMultiple(0, d, fromY);
    DivAddMultiple(0, d, fromY + dy);
    if dx > 0 {
      assert fromY * dx + (fromX + dx - fromX) * dy == (fromY + dy) * d;
    } else {
      assert fromY * -dx - (fromX + dx - fromX) * dy == (fromY + dy) * d;
    }
  }

  /** Starting the step `k` pixels lower moves the interpolated y `k` pixels lower. */
  lemma CrossingYShift(fromX: int, fromY: int, dx: int, dy: int, col: int, k: int)
    requires dx != 0
    ensures CrossingY(fromX, fromY + k, dx, dy, col) == CrossingY(fromX, fromY, dx, dy, col) + k
  {
    if dx > 0 {
      assert (fromY + k) * dx + (col - fromX) * dy == fromY * dx + (col - fromX) * dy + k * dx;
      DivAddMultiple(fromY * dx + (col - fromX) * dy, dx, k);
    } else {
      assert (fromY + k) * -dx - (col - fromX) * dy == fromY * -dx - (col - fromX) * dy + k * -dx;
      DivAddMultiple(fromY * -dx - (col - fromX) * dy, -dx, k);
    }
  }

  /**
    For a ball moving left, a column further left is met later: lower down
    when the ball is moving down, higher up when it is moving up.
   */
  lemma CrossingYMonotone(fromX: int, fromY: int, dx: int, dy: int, col1: int, col2: int)
    requires dx < 0 && col1 <= col2
    ensures dy >= 0 ==> CrossingY(fromX, fromY, dx, dy, col1) >= CrossingY(fromX, fromY, dx, dy, col2)
    ensures dy <= 0 ==> CrossingY(fromX, fromY, dx, dy, col1) <= CrossingY(fromX, fromY, dx, dy, col2)
  {
    var n1 := fromY * -dx - (col1 - fromX) * dy;
    var n2 := fromY * -dx - (col2 - fromX) * dy;
    assert n1 - n2 == (col2 - col1) * dy;
    if dy >= 0 {
      assert (col2 - col1) * dy >= 0;
      DivMonotone(n2, n1, -dx);
    }
    if dy <= 0 {
      assert (col2 - col1) * -dy >= 0;
      DivMonotone(n1, n2, -dx);
    }
  }

  /**
    The estimate `calculate_keepout` stores for a crossing: the copy's y
    where its step meets the paddle's near column.  On the right that is
    the column the ball's right edge reaches; on the left it is the
    paddle's right edge, which the ball's centre reaches `BALL_RADIUS`
    later than the live contact test looks.
   */
  function BounceY(c: Crossing, dx: int, t: Table): int
    requires dx != 0
  {
    match c.side
    case Right => CrossingY(c.fromX + BallRadius + 1, c.fromY, dx, c.dy, t.RightPaddleX())
    case Left => CrossingY(c.fromX, c.fromY, dx, c.dy, t.LeftPaddleX() + PaddleW)
  }

  /** Whether a step carries the ball's centre onto the left paddle's face, the column the live contact test uses. */
  predicate CrossesFace(oldX: int, newX: int, t: Table) {
    newX <= t.LeftPaddleX() + PaddleW + BallRadius && oldX >= t.LeftPaddleX() + PaddleW + BallRadius
  }

  /**
    The corrected left estimate: the copy's y where its step meets the
    face, the same column the live contact test interpolates at.
   */
  function FaceBounceY(c: Crossing, dx: int, t: Table): int
    requires dx != 0
  {
    CrossingY(c.fromX, c.fromY, dx, c.dy, t.LeftPaddleX() + PaddleW + BallRadius)
  }
}

=== FILE: paddle.dfy ===
/**
  The paddle AI's integer decisions: the keepout band the ball is expected
  to sweep, where the paddle should go to hit or to miss the ball, the
  just-in-time capped step towards that destination, and the final clamp
  that keeps a paddle between the bars.
 */
module PaddleAi {
  import opened Config
  import opened Geometry

  /** Which paddle. */
  datatype Side = Left | Right

  /** The y range the ball is expected to occupy while it crosses a paddle's column. */
  datatype Band = Band(top: Byte, bot: Byte)

  /** Distance below the larger estimate at which the band ends: one less on the right. */
  function BandMargin(side: Side): (m: int)
    ensures m == BallRadius - 1 || m == BallRadius
  {
    match side
    case Right => BallRadius - 1
    case Left => BallRadius
  }

  /**
    The keepout band from the two estimates of the ball's y (where it meets
    the paddle's column, and where the look-ahead ended): from the smaller
    estimate to the larger one plus the side's margin, stored in `uint8_t`.
   */
  function Keepout(side: Side, bouncepos: Byte, endpos: Byte): (k: Band)
    ensures k.top <= bouncepos && k.top <= endpos
    ensures k.top == bouncepos || k.top == endpos
    ensures bouncepos + BandMargin(side) < 256 && endpos + BandMargin(side) < 256 ==>
              k.top <= k.bot && bouncepos + BandMargin(side) <= k.bot && endpos + BandMargin(side) <= k.bot
    ensures k.bot == Wrap8(bouncepos + BandMargin(side)) || k.bot == Wrap8(endpos + BandMargin(side))
  {
    if bouncepos > endpos then Band(endpos, Wrap8(bouncepos + BandMargin(side)))
    else Band(bouncepos, Wrap8(endpos + BandMargin(side)))
  }

  /** A losing paddle with the band's top at or above this y goes below the band. */
  const NearTop: int := BarMargin + BarHeight + PaddleH

  /** A losing paddle with the band's bottom at or below this y (given the table height) goes above it. */
  function NearBottom(h: int): int {
    h - BarMargin - BarHeight - PaddleH - 2
  }

  /** The paddle's top y when it sits just below the band. */
  function BelowBand(k: Band): int {
    k.bot + 2
  }

  /** The paddle's top y when it sits just above the band. */
  function AboveBand(k: Band): int {
    k.top - PaddleH - 2
  }

  /**
    Where the paddle heads.  To win it centres itself on the expected
    bounce.  To lose it goes below the band when the band is near the top,
    else above it when the band is near the bottom, else to the side the
    coin picks: above on heads, below on tails.
   */
  function Destination(lose: bool, bouncepos: Byte, k: Band, h: int, heads: bool): (dest: int)
    ensures !lose ==> dest + PaddleH / 2 == bouncepos + BallRadius
    ensures lose ==> dest == BelowBand(k) || dest == AboveBand(k)
    ensures lose && k.top <= NearTop ==> dest > k.bot
    ensures lose && k.top > NearTop && k.bot >= NearBottom(h) ==> dest + PaddleH < k.top
    ensures lose && k.top <= k.bot && k.top > NearTop && k.bot < NearBottom(h) ==>
              (heads <==> dest + PaddleH < k.top)
  {
    if !lose then bouncepos + BallRadius - PaddleH / 2
    else if k.top <= NearTop then BelowBand(k)
    else if k.bot >= NearBottom(h) then AboveBand(k)
    else if heads then AboveBand(k)
    else BelowBand(k)
  }

  /** The paddle's top y a clear pixel further below the band than `BelowBand`. */
  function ClearBelowBand(k: Band): int {
    k.bot + 3
  }

  /** The paddle's top y a clear pixel further above the band than `AboveBand`. */
  function ClearAboveBand(k: Band): int {
    k.top - PaddleH - 3
  }

  /**
    The losing destination with one more pixel of room: the same choice of
    side as `Destination`, but the paddle stops a clear pixel short of the
    ball's box, so the collision test (which counts touching edges) fails
    on both paddles.  A winning paddle still centres on the bounce.
   */
  function ClearDestination(lose: bool, bouncepos: Byte, k: Band, h: int, heads: bool): (dest: int)
    ensures !lose ==> dest == Destination(false, bouncepos, k, h, heads)
    ensures lose ==> dest == ClearBelowBand(k) || dest == ClearAboveBand(k)
    ensures lose && Destination(true, bouncepos, k, h, heads) != AboveBand(k) ==> dest == ClearBelowBand(k)
    ensures lose && Destination(true, bouncepos, k, h, heads) != BelowBand(k) ==> dest == ClearAboveBand(k)
  {
    if !lose then bouncepos + BallRadius - PaddleH / 2
    else if k.top <= NearTop then ClearBelowBand(k)
    else if k.bot >= NearBottom(h) then ClearAboveBand(k)
    else if heads then ClearAboveBand(k)
    else ClearBelowBand(k)
  }

  /** The paddle at column `x` with top `y`. */
  function PaddleRect(x: int, y: int): Rect {
    Rect(x, y, PaddleW, PaddleH)
  }

  /** The band as a rectangle in the paddle's column. */
  function BandRect(x: int, k: Band): Rect
    requires k.top <= k.bot
  {
    Rect(x, k.top, PaddleW, k.bot - k.top)
  }

  /** A paddle sent to lose never overlaps the band, by the collision test itself. */
  lemma LosingPaddleClearsBand(x: int, bouncepos: Byte, k: Band, h: int, heads: bool)
    requires k.top <= k.bot
    ensures !Intersects(PaddleRect(x, Destination(true, bouncepos, k, h, heads)), BandRect(x, k))
  {
  }

  /** A paddle sent to win covers the ball's whole box at the expected bounce. */
  lemma WinningPaddleCoversBall(x: int, bouncepos: Byte, k: Band, h: int, heads: bool)
    ensures var dest := Destination(false, bouncepos, k, h, heads);
            dest <= bouncepos - BallRadius && bouncepos + BallRadius <= dest + PaddleH
  {
  }

  /** Whether the paddle must start moving: it is further away than the remaining frames after this one can cover. */
  predicate MustMove(y: int, dest: int, ticks: Byte) {
    Abs(y - dest) > (ticks - 1) * MaxPaddleSpeed
  }

  /** Absolute value. */
  function Abs(v: int): (a: nat)
    ensures a == v || a == -v
  {
    if v < 0 then -v else v
  }

  /** The smaller of two integers. */
  function Min(a: int, b: int): (m: int)
    ensures m <= a && m <= b
    ensures m == a || m == b
  {
    if a <= b then a else b
  }

  /**
    One frame of the paddle's travel with `ticks` frames left: if it must
    move, it moves towards `dest` by the distance, capped at the top speed
    (first the downward test, then the upward one on the updated y).  It
    never passes `dest`, and it stays put when there is still time.
   */
  function PaddleStep(y: int, dest: int, ticks: Byte): (y': int)
    ensures Min(y, dest) <= y' <= Max(y, dest)
    ensures Abs(y' - y) <= MaxPaddleSpeed
    ensures !MustMove(y, dest, ticks) ==> y' == y
    ensures MustMove(y, dest, ticks) ==> Abs(y' - y) == Min(Abs(y - dest), MaxPaddleSpeed)
  {
    if !MustMove(y, dest, ticks) then y
    else
      var distance := Abs(y - dest);
      var down := if dest > y then y + Min(distance, MaxPaddleSpeed) else y;
      if dest < down then down - Min(distance, MaxPaddleSpeed) else down
  }

  /**
    The paddle's position after the first `n` of the frames with `ticks`,
    `ticks - 1`, ... frames left.
   */
  function Glide(y: int, dest: int, ticks: Byte, n: nat): int
    requires n <= ticks
    decreases n
  {
    if n == 0 then y else Glide(PaddleStep(y, dest, ticks), dest, ticks - 1, n - 1)
  }

  /**
    The just-in-time plan arrives: a paddle that starts no further from its
    destination than the remaining frames allow ends on it by the last one.
   */
  lemma {:induction false} GlideArrives(y: int, dest: int, ticks: Byte)
    requires 1 <= ticks
    requires Abs(y - dest) <= ticks * MaxPaddleSpeed
    ensures Glide(y, dest, ticks, ticks) == dest
    decreases ticks
  {
    var y' := PaddleStep(y, dest, ticks);
    assert Abs(y' - dest) <= (ticks - 1) * MaxPaddleSpeed;
    if ticks > 1 {
      GlideArrives(y', dest, ticks - 1);
    }
  }

  /**
    The just-in-time plan does not arrive early: a paddle that starts off
    its destination, within reach, is still off it after every frame but
    the last.
   */
  lemma {:induction false} GlideNotEarly(y: int, dest: int, ticks: Byte, n: nat)
    requires n < ticks
    requires 0 < Abs(y - dest) <= ticks * MaxPaddleSpeed
    ensures Glide(y, dest, ticks, n) != dest
    decreases n
  {
    if n > 0 {
      var y' := PaddleStep(y, dest, ticks);
      assert 0 < Abs(y' - dest) <= (ticks - 1) * MaxPaddleSpeed;
      GlideNotEarly(y', dest, ticks - 1, n - 1);
    }
  }

  /**
    The final clamp: a paddle above the top bar is put on it, then one
    below the bottom bar is put on that.  On a table tall enough for a
    paddle the result lies between the bars, and a paddle already there is
    left alone.
   */
  function Clamp(y: int, t: Table): (c: int)
    ensures c == y || c == t.PaddleTop() || c == t.PaddleBottom()
    ensures c <= t.PaddleBottom()
    ensures t.PaddleTop() <= t.PaddleBottom() ==> t.PaddleTop() <= c
    ensures t.PaddleTop() <= y <= t.PaddleBottom() ==> c == y
  {
    var raised := if y < t.PaddleTop() then t.PaddleTop() else y;
    if raised > t.PaddleBottom() then t.PaddleBottom() else raised
  }

  /** Clamping twice is clamping once. */
  lemma ClampIdempotent(y: int, t: Table)
    requires t.PaddleTop() <= t.PaddleBottom()
    ensures Clamp(Clamp(y, t), t) == Clamp(y, t)
  {
  }

  /** A paddle out of range is put on the nearer limit. */
  lemma ClampNearest(y: int, t: Table)
    requires t.PaddleTop() <= t.PaddleBottom()
    ensures y < t.PaddleTop() ==> Clamp(y, t) == t.PaddleTop()
    ensures y > t.PaddleBottom() ==> Clamp(y, t) == t.PaddleBottom()
  {
  }
}

=== FILE: prng.dfy ===
/**
  The watchface's pseudo-random generator: two state words enciphered in
  place with XTEA under a key derived once from the time of day.

  `RAND_MAX` comes from the C library and is not fixed by the program, so it
  is a parameter (`randMax`) wherever a draw masks with it.
 */
module Prng {
  import opened Xtea
  import opened Config

  /** The generator's state: the two words `rval` and the key `key`. */
  datatype State = State(rval: Block, key: Key)

  /**
    The result of one draw: the returned `uint16_t`, held in a 32-bit word
    whose upper half is zero, and the state afterwards.
   */
  datatype Draw = Draw(value: bv32, next: State)

  /** The key the seeding starts from. */
  const InitialKey: Key := Key(0x2DE9_716E, 0x993F_DDD1, 0x2A77_FB57, 0xB172_E6B0)

  /** The all-zero state words. */
  const ZeroBlock: Block := Block(0, 0)

  /** One `encipher` call on the state: the words are enciphered, the key is kept. */
  function Advance(s: State): State {
    State(EncipherBlock(s.rval, s.key), s.key)
  }

  /** The exclusive or of the two state words, which every draw reads. */
  function Mixed(s: State): bv32 {
    s.rval.v0 ^ s.rval.v1
  }

  /**
    Whether `v` is `w` masked with `randMax` and cut to 16 bits, by what a
    caller can rely on: it fits the 16-bit return type, sets no bit outside
    `randMax`, and agrees with `w` on every bit it keeps.
   */
  predicate IsMaskedDraw(v: bv32, w: bv32, randMax: bv32) {
    v <= 0xFFFF && v & !randMax == 0 && v & randMax & 0xFFFF == w & randMax & 0xFFFF
  }

  /** `w` masked with `randMax` and truncated to the 16-bit return type. */
  function MaskedValue(w: bv32, randMax: bv32): (v: bv32)
    ensures v & !randMax == 0
    ensures v & randMax & 0xFFFF == w & randMax & 0xFFFF
  {
    (w & randMax) & 0xFFFF
  }

  /** A masked value fits the 16-bit return type, and so meets `IsMaskedDraw`. */
  lemma MaskedValueFits(w: bv32, randMax: bv32)
    ensures MaskedValue(w, randMax) <= 0xFFFF
    ensures IsMaskedDraw(MaskedValue(w, randMax), w, randMax)
  {
    var v := MaskedValue(w, randMax);
    assert v <= 0xFFFF;
  }

  /**
    `crand` of kind 0 (and of every kind above 2): one encipherment, then the
    mixed word of the NEW state masked with `randMax` and truncated to the
    16-bit return type.  The value fits 16 bits, sets nothing outside
    `randMax`, and keeps the new mixed word's bits that `randMax` selects.
   */
  function DrawWord(s: State, randMax: bv32): (d: Draw)
    ensures d.next.key == s.key && d.next.rval == EncipherBlock(s.rval, s.key)
    ensures IsMaskedDraw(d.value, Mixed(d.next), randMax)
  {
    var next := Advance(s);
    MaskedValueFits(Mixed(next), randMax);
    Draw(MaskedValue(Mixed(next), randMax), next)
  }

  /** `crand(1)`: bits 15 and 16 of the mixed word, state unchanged. */
  function DrawQuadrant(s: State): (d: Draw)
    ensures d.next == s
    ensures d.value <= 3
    ensures d.value == (Mixed(s) >> 15) & 3
  {
    Draw((Mixed(s) >> 15) & 3, s)
  }

  /** `crand(2)`: bit 17 of the mixed word, state unchanged. */
  function DrawBit(s: State): (d: Draw)
    ensures d.next == s
    ensures d.value <= 1
    ensures d.value == (Mixed(s) >> 17) & 1
  {
    Draw((Mixed(s) >> 17) & 1, s)
  }

  /**
    `crand(kind)`: only kind 0 and the kinds above 2 advance the state; kinds
    1 and 2 read the current state.
   */
  function Crand(s: State, kind: Byte, randMax: bv32): (d: Draw)
    ensures kind == 0 || kind > 2 ==> d == DrawWord(s, randMax)
    ensures kind == 1 ==> d == DrawQuadrant(s)
    ensures kind == 2 ==> d == DrawBit(s)
    ensures d.next == s || d.next == Advance(s)
  {
    if kind == 0 || kind > 2 then DrawWord(s, randMax)
    else if kind == 1 then DrawQuadrant(s)
    else DrawBit(s)
  }

  /**
    The coin the paddle AI flips when a losing paddle could miss on either
    side: `crand(2) & 1`, read without advancing the state.
   */
  function Coin(s: State): (heads: bool)
    ensures heads <==> (Mixed(s) >> 17) & 1 == 1
  {
    DrawBit(s).value & 1 == 1
  }

  /**
    The first seed word: hour, milliseconds, minute and second packed a byte
    apart, most significant first.  The milliseconds (up to 999) are ORed in
    at bit 16 and so overlap the hour's low bits.
   */
  function SeedWordA(hour: bv32, millis: bv16, minute: bv32, second: bv32): bv32 {
    ((((((hour << 8) | millis as bv32) << 8) | minute) << 8) | second)
  }

  /** The second seed word: milliseconds, second, hour, second. */
  function SeedWordB(hour: bv32, millis: bv16, second: bv32): bv32 {
    ((((((millis as bv32 << 8) | second) << 8) | hour) << 8) | second)
  }

  /**
    The clock reading `init_crand` seeds from: the hour, minute and second of
    one `localtime` call, and the milliseconds of two `time_ms` calls (one for
    each seed word; they may differ).
   */
  datatype Clock = Clock(hour: bv32, minute: bv32, second: bv32, firstMillis: bv16, secondMillis: bv16)

  /**
    The key `init_crand` derives from its two seed words `a` and `b`.  The
    state words start at zero and are enciphered between key updates; each
    key word is XORed twice, once with a seed word and once with a state
    word, shifted left or right by one bit.  The eighth encipherment's
    output is discarded when the words are reset, so it does not appear
    here.
   */
  function SeedKey(a: bv32, b: bv32): (k: Key)
    ensures k.k0 & 1 == InitialKey.k0 & 1
    ensures k.k1 & 1 == InitialKey.k1 & 1
    ensures k.k2 >> 31 == InitialKey.k2 >> 31
    ensures k.k3 >> 31 == InitialKey.k3 >> 31
  {
    var r1 := EncipherBlock(ZeroBlock, InitialKey);
    var key1 := InitialKey.(k0 := InitialKey.k0 ^ (r1.v1 << 1));
    var r2 := EncipherBlock(r1, key1);
    var key2 := key1.(k1 := key1.k1 ^ (a << 1));
    var r3 := EncipherBlock(r2, key2);
    var key3 := key2.(k2 := key2.k2 ^ (a >> 1));
    var r4 := EncipherBlock(r3, key3);
    var key4 := key3.(k3 := key3.k3 ^ (r4.v1 >> 1));
    var r5 := EncipherBlock(r4, key4);
    var key5 := key4.(k0 := key4.k0 ^ (b << 1));
    var r6 := EncipherBlock(r5, key5);
    var key6 := key5.(k1 := key5.k1 ^ (r6.v0 << 1));
    var r7 := EncipherBlock(r6, key6);
    var key7 := key6.(k2 := key6.k2 ^ (r7.v0 >> 1));
    key7.(k3 := key7.k3 ^ (b >> 1))
  }

  /** The first seed word of a clock reading. */
  function FirstWord(c: Clock): bv32 {
    SeedWordA(c.hour, c.firstMillis, c.minute, c.second)
  }

  /** The second seed word of a clock reading. */
  function SecondWord(c: Clock): bv32 {
    SeedWordB(c.hour, c.secondMillis, c.second)
  }

  /**
    `init_crand` as a function of the clock reading: the state words are the
    zero block enciphered once under the derived key, and the key keeps the
    four bits of the initial key that the seeding cannot reach.
   */
  function InitCrand(c: Clock): (s: State)
    ensures s.key.k0 & 1 == InitialKey.k0 & 1 && s.key.k1 & 1 == InitialKey.k1 & 1
    ensures s.key.k2 >> 31 == InitialKey.k2 >> 31 && s.key.k3 >> 31 == InitialKey.k3 >> 31
  {
    var k := SeedKey(FirstWord(c), SecondWord(c));
    State(EncipherBlock(ZeroBlock, k), k)
  }

  /** Two clock readings that pack to the same seed words seed the same generator state. */
  lemma SeedDependsOnlyOnWords(c: Clock, d: Clock)
    requires FirstWord(c) == FirstWord(d) && SecondWord(c) == SecondWord(d)
    ensures InitCrand(c) == InitCrand(d)
  {
  }

  /**
    Only the low byte of the second millisecond reading reaches the seed:
    it is shifted left 24 bits, so readings that agree there seed the same
    state.
   */
  lemma SecondMillisLowByteOnly(c: Clock, m: bv16)
    requires m & 0xFF == c.secondMillis & 0xFF
    ensures InitCrand(c.(secondMillis := m)) == InitCrand(c)
  {
    assert SecondWord(c.(secondMillis := m)) == SecondWord(c);
    SeedDependsOnlyOnWords(c.(secondMillis := m), c);
  }

  /**
    The first millisecond reading is ORed in one byte above the minute, so
    its bit 8 lands on the hour's bit 0: at an odd hour, readings that
    differ only there seed the same state.
   */
  lemma FirstMillisMeetHour(c: Clock)
    requires c.hour & 1 == 1
    ensures InitCrand(c.(firstMillis := c.firstMillis | 0x100)) == InitCrand(c)
  {
    assert FirstWord(c.(firstMillis := c.firstMillis | 0x100)) == FirstWord(c);
    SeedDependsOnlyOnWords(c.(firstMillis := c.firstMillis | 0x100), c);
  }

  /** An instance of the overlap `FirstMillisMeetHour` states in general: hour 1 and 256 ms pack to the same first seed word. */
  lemma SeedWordOverlaps()
    ensures SeedWordA(1, 0, 0, 0) == SeedWordA(0, 256, 0, 0)
  {
  }

  /** The draws that do not advance the state can be repeated: they return the same value every time. */
  lemma NonAdvancingDrawsRepeat(s: State, kind: Byte, randMax: bv32)
    requires kind == 1 || kind == 2
    ensures Crand(Crand(s, kind, randMax).next, kind, randMax) == Crand(s, kind, randMax)
  {
  }
}

=== FILE: score.dfy ===
/**
  The score line: the current time shown as `"HH  MM"`, the hour on the left
  and the minute on the right, each printed with `%02d` into an 8-byte
  buffer (so at most 7 characters before the terminating NUL).
 */
module Score {
  import opened Config

  /** Room in the score buffer for characters, the NUL taking the eighth byte. */
  const ScoreRoom: nat := 7

  /**
    The hour shown: unchanged in 24-hour mode; in 12-hour mode midnight shows
    as 12 and the afternoon hours lose 12.
   */
  function DisplayHour(hour: Byte, twelveHour: bool): (shown: Byte)
    ensures !twelveHour ==> shown == hour
    ensures twelveHour && 1 <= hour <= 12 ==> shown == hour
    ensures twelveHour && hour <= 23 ==> 1 <= shown <= 12 && shown % 12 == hour % 12
  {
    if !twelveHour then hour
    else if hour == 0 then 12
    else if hour > 12 then hour - 12
    else hour
  }

  /** Whether `c` is a decimal digit. */
  predicate IsDigit(c: char) {
    '0' <= c <= '9'
  }

  /** Whether every character of `s` is a decimal digit. */
  predicate AllDigits(s: string) {
    forall i :: 0 <= i < |s| ==> IsDigit(s[i])
  }

  /** The character of a digit value. */
  function DigitChar(d: int): (c: char)
    requires 0 <= d < 10
    ensures IsDigit(c) && c as int - '0' as int == d
  {
    (d + '0' as int) as char
  }

  /** The value of a digit character. */
  function DigitValue(c: char): (d: nat)
    requires IsDigit(c)
    ensures d < 10 && DigitChar(d) == c
  {
    c as int - '0' as int
  }

  /** The number a string of digits denotes, most significant digit first (the reading side). */
  function ValueOf(s: string): nat
    requires AllDigits(s)
    decreases |s|
  {
    if s == [] then 0 else ValueOf(s[..|s| - 1]) * 10 + DigitValue(s[|s| - 1])
  }

  /** Leading zeros do not change the value a digit string denotes. */
  lemma {:induction false} LeadingZeroValue(s: string)
    requires AllDigits(s)
    ensures AllDigits("0" + s) && ValueOf("0" + s) == ValueOf(s)
    decreases |s|
  {
    if s != [] {
      var init := s[..|s| - 1];
      assert ("0" + s)[..|"0" + s| - 1] == "0" + init;
      LeadingZeroValue(init);
    }
  }

  /**
    The shortest decimal spelling of `n` (`%d`): all digits, denoting `n`,
    one character below 10 and two from 10 to 99.
   */
  function Decimal(n: nat): (s: string)
    ensures AllDigits(s) && ValueOf(s) == n
    ensures n < 10 <==> |s| == 1
    ensures 10 <= n < 100 <==> |s| == 2
    decreases n
  {
    if n < 10 then [DigitChar(n)]
    else
      var front := Decimal(n / 10);
      var s := front + [DigitChar(n % 10)];
      assert s[..|s| - 1] == front;
      s
  }

  /**
    `%02d`: the decimal spelling padded with a leading zero to at least two
    characters.  Below 100 it is exactly two digits.
   */
  function PadTwo(n: nat): (s: string)
    ensures AllDigits(s) && ValueOf(s) == n
    ensures |s| >= 2
    ensures n < 100 <==> |s| == 2
  {
    if n < 10 then
      LeadingZeroValue(Decimal(n));
      "0" + Decimal(n)
    else Decimal(n)
  }

  /** `s` cut to at most `room` characters, as `snprintf` does. */
  function Truncate(s: string, room: nat): (t: string)
    ensures |t| <= room && t <= s
    ensures |s| <= room ==> t == s
  {
    if |s| <= room then s else s[..room]
  }

  /** `set_score`: the hour and the minute, two spaces apart, cut to fit the buffer. */
  function FormatScore(hour: Byte, minute: Byte, twelveHour: bool): (score: string)
    ensures |score| <= ScoreRoom
    ensures hour <= 23 && minute <= 59 ==> |score| == 6 && score[2..4] == "  "
  {
    Truncate(PadTwo(DisplayHour(hour, twelveHour)) + "  " + PadTwo(minute), ScoreRoom)
  }

  /** The pair of numbers a score line shows, read back; `None` if it is not in the `"HH  MM"` shape. */
  function ReadScore(s: string): Option<(nat, nat)> {
    if |s| == 6 && s[2..4] == "  " && AllDigits(s[..2]) && AllDigits(s[4..])
    then Some((ValueOf(s[..2]), ValueOf(s[4..])))
    else None
  }

  /**
    Round trip: for every real clock reading the score line reads back as
    the displayed hour and the minute.
   */
  lemma ScoreRoundTrip(hour: Byte, minute: Byte, twelveHour: bool)
    requires hour <= 23 && minute <= 59
    ensures ReadScore(FormatScore(hour, minute, twelveHour)) == Some((DisplayHour(hour, twelveHour), minute))
  {
    var h, m := PadTwo(DisplayHour(hour, twelveHour)), PadTwo(minute);
    var s := h + "  " + m;
    assert FormatScore(hour, minute, twelveHour) == s;
    assert s[..2] == h && s[4..] == m;
  }

  /** The afternoon in 12-hour mode, midnight, and the same afternoon in 24-hour mode. */
  lemma ScoreExamples()
    ensures FormatScore(13, 0, true) == "01  00"
    ensures FormatScore(0, 5, true) == "12  05"
    ensures FormatScore(13, 0, false) == "13  00"
  {
  }
}

=== FILE: xtea.dfy ===
/**
  The XTEA block cipher (Needham and Wheeler, "Tea extensions", 1997) as the
  watchface's generator uses it: 32 rounds over two 32-bit words and a
  four-word key, every operation wrapping modulo 2^32.
 */
module Xtea {

  /** Key schedule constant, 2^32 divided by the golden ratio. */
  const Delta: bv32 := 0x9E37_79B9

  /** Number of rounds the generator runs. */
  const RoundCount: nat := 32

  /** A 128-bit key as four words. */
  datatype Key = Key(k0: bv32, k1: bv32, k2: bv32, k3: bv32) {

    /** The key word selected by the two low bits of `i`. */
    function Word(i: bv32): bv32 {
      var j := i & 3;
      if j == 0 then k0 else if j == 1 then k1 else if j == 2 then k2 else k3
    }
  }

  /** A 64-bit block as two words. */
  datatype Block = Block(v0: bv32, v1: bv32)

  /** The shift-xor-add mixing applied to one half. */
  function Mix(v: bv32): bv32 {
    ((v << 4) ^ (v >> 5)) + v
  }

  /**
    One round with running sum `sum`: update v0 keyed by `sum`, then update v1
    keyed by the advanced sum `sum + Delta`.
   */
  function Round(b: Block, sum: bv32, k: Key): Block {
    var v0 := b.v0 + (Mix(b.v1) ^ (sum + k.Word(sum)));
    var next := sum + Delta;
    var v1 := b.v1 + (Mix(v0) ^ (next + k.Word(next >> 11)));
    Block(v0, v1)
  }

  /** The running sum before round `i` (counting from 0): `i` additions of `Delta` to zero. */
  function SumBefore(i: nat): bv32
    decreases i
  {
    if i == 0 then 0 else SumBefore(i - 1) + Delta
  }

  /** The first `n` rounds, round `i` using the sum `SumBefore(i)`. */
  function Iterate(b: Block, k: Key, n: nat): Block
    decreases n
  {
    if n == 0 then b else Round(Iterate(b, k, n - 1), SumBefore(n - 1), k)
  }

  /** Encipherment of a block: all 32 rounds. */
  function EncipherBlock(b: Block, k: Key): Block {
    Iterate(b, k, RoundCount)
  }

  /** Advancing the running sum by `Delta` moves it on to the next round's value. */
  lemma SumAdvances(i: nat, sum: bv32)
    requires sum == SumBefore(i)
    ensures sum + Delta == SumBefore(i + 1)
  {
  }

  /**
    The generator's `encipher` routine: a counted loop of 32 rounds whose
    running sum starts at zero and grows by `Delta` after every round.  It
    leaves the key alone and computes `EncipherBlock`.
   */
  method Encipher(b: Block, k: Key) returns (r: Block)
    ensures r == EncipherBlock(b, k)
  {
    var v0, v1, sum := b.v0, b.v1, 0 as bv32;
    var i := 0;
    while i < RoundCount
      invariant 0 <= i <= RoundCount
      invariant sum == SumBefore(i)
      invariant Block(v0, v1) == Iterate(b, k, i)
    {
      var next := Round(Block(v0, v1), sum, k);
      v0, v1 := next.v0, next.v1;
      SumAdvances(i, sum);
      sum := sum + Delta;
      i := i + 1;
    }
    r := Block(v0, v1);
  }
}
